=== FILE: README.md ===
# Push notifications sync engine, modelled in Dafny

This project models the synchronisation core of the Pusher Beams iOS/macOS
SDK. The core has three parts:

- **The durable job queue** (`ServerSyncJobStore`). Every state-changing call
  of the SDK is recorded as a job. The queue is an in-memory list that is
  rewritten to a file after each change.
- **The device state store** (`DeviceStateStore`). The locally confirmed
  interests, the user id, the server-confirmed interests hash and two one-shot
  flags, kept in a key-value store.
- **The sync engine** (`ServerSyncProcessHandler`). It replays the saved queue
  when it is created. It handles each job on a single serial lane:
  - before the device is registered, every job but StartJob is skipped;
  - StartJob registers the device and reconciles the queued interest
    changes with the server's initial interest set;
  - StopJob deletes the device;
  - every other job makes its own call, re-registering the device when the
    service no longer knows it.

  Each handled job is then popped from the queue.

The modules are:

- `Jobs`: the job datatype.
- `SyncJobStore`: the queue and its file.
- `DeviceStateStore`: the store, as a `map<string, Value>`.
- `Reconciliation`: the fold that Start applies to the queued jobs.
- `SyncEngine`: job handling.
- `Startup`: the replay at creation.

The engine is a pure state machine over a record holding these fields:

- the queue;
- the store;
- the device facts (device id, APNs token, instance id, metadata);
- the events handed to the application;
- a log of every call made to the service or to the token provider;
- the replies still to come.

The replies are three ordered streams: registrations, plain API replies and
token-provider answers. A call for which no reply is left never returns. This
stands for a call retried forever with infinite back-off, or a token provider
that never calls back. The engine is then `stalled`, and every later step
leaves it unchanged.

Each forced unwrap of the device id or of the APNs token in the SDK becomes a
precondition (`Ready`, `Wf`). The contracts show that these preconditions
always hold where the engine calls those members. The registration gate
guarantees a device id before any per-job processing. Start and
re-registration store the id together with the token.

Behaviour of the SDK that the model keeps:

- Start folds the whole queue snapshot, including any jobs queued after the
  StartJob (`Sources/Internal/ServerSyncProcessHandler.swift:66`).
- StopJob keeps the instance id; the line that would delete it is commented
  out (`Sources/Internal/ServerSyncProcessHandler.swift:120`).
- Creation skips every saved SetUserId job, wherever it stands in the queue
  (`Sources/Internal/ServerSyncProcessHandler.swift:21-26`).
- A failed SetUserId job, whether the token or the service call failed,
  keeps whatever user id was stored before; only the event reports the failure
  (`Sources/Internal/ServerSyncProcessHandler.swift:268-293`).
- After DeviceNotFound and a successful re-registration the job runs through
  `processJob` again, so a second DeviceNotFound registers the device once
  more; the recursion ends only when a registration fails or a reply other
  than DeviceNotFound arrives (`Sources/Internal/ServerSyncProcessHandler.swift:179-181`).

## Model

| member | source | states |
|---|---|---|
| SyncJobStore.Open | Sources/Persistence/ServerSyncJobStore.swift:8-25 | A fresh store holds the saved list; a missing or undecodable file gives an empty queue; memory and file agree |
| SyncJobStore.PersistOperations | Sources/Persistence/ServerSyncJobStore.swift:27-38 | A completed write reads back as exactly the list written; an encode failure or a failed atomic write leaves the previous file in place |
| SyncJobStore.IsEmpty | Sources/Persistence/ServerSyncJobStore.swift:40-46 | The queue reports empty exactly when it holds no job |
| SyncJobStore.First | Sources/Persistence/ServerSyncJobStore.swift:48-54 | The head of the queue, present exactly when the queue is non-empty |
| SyncJobStore.Append | Sources/Persistence/ServerSyncJobStore.swift:62-67 | The job goes at the end; after a completed write the file holds the new list, after a failed one it keeps the old file |
| SyncJobStore.RemoveFirst | Sources/Persistence/ServerSyncJobStore.swift:69-76 | A non-empty queue loses exactly its head and is persisted; an empty queue is left untouched, file included |
| SyncJobStore.RestartRecoversQueue | Sources/Persistence/ServerSyncJobStore.swift:62-76 | After any sequence of appends and removals whose writes complete, a restarted process reads back exactly the in-memory queue |
| SyncJobStore.AppendsExtend | Sources/Persistence/ServerSyncJobStore.swift:62-67 | Appending jobs one by one extends the queue by those jobs, in order |
| SyncJobStore.AppendThenRestart | Sources/Persistence/ServerSyncJobStore.swift:12-25 | Jobs appended to a fresh installation are read back in order by the next process |
| DeviceStateStore.SubscribedIffKey | Sources/Persistence/DeviceStateStore.swift:87-97 | An interest is among the subscriptions exactly when its prefixed key is stored |
| DeviceStateStore.PersistInterest | Sources/Persistence/DeviceStateStore.swift:16-23 | Reports a change exactly when the interest was absent; afterwards the subscriptions are the old ones plus the interest; no other key changes |
| DeviceStateStore.PersistInterests | Sources/Persistence/DeviceStateStore.swift:25-39 | Reports a change exactly when the sorted stored list differs from the sorted argument; without a change the store is untouched; afterwards the subscriptions are the argument's elements; keys outside the interests prefix are kept |
| DeviceStateStore.PersistInterestsIdempotent | Sources/Persistence/DeviceStateStore.swift:25-39 | Repeating the call with a duplicate-free argument reports no change |
| DeviceStateStore.PersistInterestsWithDuplicateAlwaysChanges | Sources/Persistence/DeviceStateStore.swift:25-39 | An argument with a repeated interest never matches the stored list, so every call rewrites the interests |
| DeviceStateStore.SetUserId | Sources/Persistence/DeviceStateStore.swift:41-48 | Writes only when no user id is stored, whatever the argument; reports a change exactly then; a user id is stored afterwards; no other key changes |
| DeviceStateStore.RemoveUserId | Sources/Persistence/DeviceStateStore.swift:54-56 | No user id afterwards; no other key changes |
| DeviceStateStore.RemoveInterest | Sources/Persistence/DeviceStateStore.swift:58-65 | Reports a change exactly when the interest was stored; afterwards the subscriptions are the old ones minus it; no other key changes |
| DeviceStateStore.RemoveAllSubscriptions | Sources/Persistence/DeviceStateStore.swift:67-69 | Exactly the keys under the interests prefix are deleted; no subscriptions are left |
| DeviceStateStore.RemoveAll | Sources/Persistence/DeviceStateStore.swift:71-73 | Exactly the keys under the SDK's global prefix are deleted, taking the interests and the user id; every other key survives with its value, the hash key among them |
| DeviceStateStore.HashRoundTrip | Sources/Persistence/DeviceStateStore.swift:79-85 | A persisted confirmed hash reads back unchanged |
| DeviceStateStore.GetServerConfirmedInterestsHash | Sources/Persistence/DeviceStateStore.swift:83-85 | A store that never confirmed a hash reads as "" |
| DeviceStateStore.GetStartJobHasBeenEnqueued | Sources/Persistence/DeviceStateStore.swift:111-113 | A missing flag, or a value that is not a boolean, reads as false |
| DeviceStateStore.StartJobFlagRoundTrip | Sources/Persistence/DeviceStateStore.swift:107-113 | The start-job flag reads back as set |
| DeviceStateStore.CalledWithRoundTrip | Sources/Persistence/DeviceStateStore.swift:115-121 | The user id setUserId was called with reads back as written |
| DeviceStateStore.Clear | Sources/Persistence/DeviceStateStore.swift:123-126 | Both one-shot keys are removed, so the start-job flag reads false and no called-with user id is stored; every other key is kept |
| Reconciliation.ReconcileMembership | Sources/Internal/ServerSyncProcessHandler.swift:61-92 | An interest ends in the reconciled set exactly when the last queued job that settles it says so (Subscribe yes, Unsubscribe no, SetSubscriptions by membership, Stop by the initial set); with no such job, exactly when the server's initial set holds it |
| Reconciliation.ReconcileOutstanding | Sources/Internal/ServerSyncProcessHandler.swift:76-87 | The jobs kept for after registration are exactly the SetUserId and RefreshToken jobs after the last StopJob, in queue order |
| Reconciliation.StopDiscardsPrefix | Sources/Internal/ServerSyncProcessHandler.swift:76-80 | Everything queued before a StopJob has no effect on the reconciliation |
| Reconciliation.IgnoredJobIsInvisible | Sources/Internal/ServerSyncProcessHandler.swift:66-91 | StartJob, ApplicationStartJob and ReportEventJob anywhere in the queue change nothing in the reconciliation |
| Reconciliation.ExampleSubscribeUnsubscribe | Sources/Internal/ServerSyncProcessHandler.swift:64-75 | Subscribe a, Unsubscribe a, Subscribe b over an empty initial set gives {b} |
| Reconciliation.ExampleStopResets | Sources/Internal/ServerSyncProcessHandler.swift:76-80 | A StopJob resets the set to the server's initial set before later jobs apply |
| SyncEngine.AssociateUserId | Sources/Internal/ServerSyncProcessHandler.swift:275-286 | One SetUserId call with the issued token; an acknowledgement stores the user id and reports success; a failure keeps the store and reports the service error; no reply left stalls |
| SyncEngine.ProcessSetUserIdJob | Sources/Internal/ServerSyncProcessHandler.swift:258-295 | Without a token provider: one TokenProviderMissing event and nothing else. With one: the token is fetched first. A token error or a throwing provider gives exactly that call, the matching error event and an unchanged store. An issued token is sent in a SetUserId call for the current device. Its acknowledgement stores the user id with a success event; its failure keeps the store with a ServerSyncFailed event. It stalls exactly when the provider or the service never answers. Only token and SetUserId calls are made |
| SyncEngine.RestoreUserId | Sources/Internal/ServerSyncProcessHandler.swift:212-252 | Nothing happens without a stored user id. Without a token provider the user id is forgotten and no call is made. With one, the first call fetches a token for the stored user id, and an issued token is sent in a SetUserId call for the new device. The user id survives exactly when a token is issued and that call is acknowledged; otherwise it is forgotten. No event is emitted |
| SyncEngine.AfterReRegistration | Sources/Internal/ServerSyncProcessHandler.swift:201-252 | The new device id is stored with the token. Non-empty local interests are pushed, as the first call, for the new device id. Every later call goes to the token provider or sets the user id. The user id is kept or forgotten, never replaced; AfterReRegistrationRestoresUserId states which. The local interests are kept and no event is emitted |
| SyncEngine.AfterReRegistrationRestoresUserId | Sources/Internal/ServerSyncProcessHandler.swift:212-252 | Unless the lane stalls, with a token provider and a stored user id the call after the push fetches a token for that user id; the user id survives exactly when a token is issued and the service acknowledges the association in the reply after the push's, and is forgotten otherwise, including when no provider is installed |
| SyncEngine.Recreate | Sources/Internal/ServerSyncProcessHandler.swift:193-256 | Registration with the stored token is the first call; a failed registration changes nothing else and reports false; a successful one reports true, consumes a registration reply and installs the new device id; the interests are unchanged; the user id is kept or forgotten, never replaced, and RecreateReassociatesUserId states which |
| SyncEngine.RecreatePushesInterests | Sources/Internal/ServerSyncProcessHandler.swift:201-210 | After a successful registration the new device id is installed and non-empty local interests are pushed for it as the next call after the registration |
| SyncEngine.RecreateThenRestoresUserId | Sources/Internal/ServerSyncProcessHandler.swift:208-252 | After a successful registration and the push, every further call goes to the token provider or sets the user id |
| SyncEngine.RecreateReassociatesUserId | Sources/Internal/ServerSyncProcessHandler.swift:193-252 | After a successful registration, unless the lane stalls, the call after the registration and the push fetches a token for the stored user id when a provider is installed; the user id survives exactly when a token is issued and the association with the new device is acknowledged, and is forgotten otherwise |
| SyncEngine.JobCall | Sources/Internal/ServerSyncProcessHandler.swift:150-173 | Exactly the interest jobs with a local change and ReportEvent jobs make a call of their own; a local no-op makes none |
| SyncEngine.SyncMetadataStep | Sources/Internal/ServerSyncProcessHandler.swift:130-136 | Saved metadata equal to the new one means no call. Otherwise there is one SyncMetadata call for the device, and the new metadata is saved exactly when that call is acknowledged |
| SyncEngine.SyncHashStep | Sources/Internal/ServerSyncProcessHandler.swift:138-146 | A hash equal to the confirmed one means no call. Otherwise there is one SetSubscriptions call with the local interests, and the hash becomes the confirmed one exactly when that call is acknowledged |
| SyncEngine.ProcessApplicationStartJob | Sources/Internal/ServerSyncProcessHandler.swift:129-147 | The calls are exactly a SyncMetadata call when the metadata differs, then a SetSubscriptions call with the local interests when their hash differs from the confirmed one. The job stalls exactly when replies run out before those calls are answered. The metadata is saved exactly when its call is acknowledged, and the hash is confirmed exactly when its call is. With nothing differing nothing happens, and only the hash key of the store can change |
| SyncEngine.ProcessJob | Sources/Internal/ServerSyncProcessHandler.swift:149-191 | Jobs without a call of their own, other than SetUserId and ApplicationStart, change nothing; a job with a call makes it first, for the current device, and emits no event; the interests and the queue are untouched |
| SyncEngine.ProcessJobDispatchesLocal | Sources/Internal/ServerSyncProcessHandler.swift:162-167 | An ApplicationStartJob runs exactly the metadata and hash sync, and a SetUserIdJob exactly the user-id association |
| SyncEngine.ProcessJobSettles | Sources/Internal/ServerSyncProcessHandler.swift:176-190 | An acknowledged call, or one failing with an error other than DeviceNotFound, is the only effect of the job: failed jobs are abandoned, not retried |
| SyncEngine.ProcessRemoteJob | Sources/Internal/ServerSyncProcessHandler.swift:150-190 | The job's own call is made first, for the current device; the interests, the queue and the events are untouched; a re-registration keeps the APNs token and installs a device id |
| SyncEngine.ProcessJobReRegisters | Sources/Internal/ServerSyncProcessHandler.swift:179-184 | DeviceNotFound is followed by a registration with the stored token and the current metadata, as the next call |
| SyncEngine.ProcessJobGivesUp | Sources/Internal/ServerSyncProcessHandler.swift:179-184 | When that registration fails too, the job is abandoned after exactly those two calls, with store and device unchanged and the lane still running |
| SyncEngine.ProcessJobRetriesForNewDevice | Sources/Internal/ServerSyncProcessHandler.swift:179-181 | When the registration after DeviceNotFound succeeds, the job's call is made again, after the registration, for the new device id |
| SyncEngine.ProcessAll | Sources/Internal/ServerSyncProcessHandler.swift:112-114 | Processing a list of jobs keeps the store shape, interests and queue; without calls of their own the device id is kept; it emits only user-id events |
| SyncEngine.DeferredJobStep | Sources/Internal/ServerSyncProcessHandler.swift:165-172 | A SetUserId job makes only token and SetUserId calls and reports its own user id; a RefreshToken job does nothing; without a token provider no call is made and the missing provider is reported |
| SyncEngine.DeferredJobsCallsOnly | Sources/Internal/ServerSyncProcessHandler.swift:112-114 | The deferred jobs make no call but token fetches and SetUserId calls |
| SyncEngine.DeferredJobsWithoutProvider | Sources/Internal/ServerSyncProcessHandler.swift:258-263 | Without a token provider the deferred jobs make no call, keep the store, and report TokenProviderMissing once per SetUserId job, in queue order |
| SyncEngine.DeferredJobsInOrder | Sources/Internal/ServerSyncProcessHandler.swift:112-114 | Unless the lane stalls, the deferred jobs report one user-id event per SetUserId job, in queue order |
| SyncEngine.StoreReconciledState | Sources/Internal/ServerSyncProcessHandler.swift:62-103 | Stores the reconciled interests, emitting InterestsChanged exactly when the local set changes, then records instance id, token and device id, with no call |
| SyncEngine.PushAndReplayDeferred | Sources/Internal/ServerSyncProcessHandler.swift:105-114 | A differing local set is pushed to the server as the first call. Every other call goes to the token provider or sets the user id, so an equal set is never pushed. The deferred SetUserId jobs report their user ids in queue order. Without a token provider they keep the store and report the missing provider. The device id is kept |
| SyncEngine.ProcessRegisteredStart | Sources/Internal/ServerSyncProcessHandler.swift:60-115 | After registration the store holds exactly the reconciled interests and the device facts are the new ones; the queue is untouched |
| SyncEngine.RegisteredStartReplaysDeferred | Sources/Internal/ServerSyncProcessHandler.swift:94-114 | Unless the lane stalls, the user ids Start reports are those of the outstanding SetUserId jobs of the reconciliation, in queue order. Without a token provider its events are exactly the InterestsChanged announcement, when the set changed, followed by one TokenProviderMissing report per outstanding SetUserId job |
| SyncEngine.RegisteredStartAnnouncesChange | Sources/Internal/ServerSyncProcessHandler.swift:94-98 | Start's first event is InterestsChanged with the reconciled set exactly when that set differs from the stored one |
| SyncEngine.RegisteredStartPushesDifference | Sources/Internal/ServerSyncProcessHandler.swift:105-114 | Start pushes the reconciled set as its first call after registering when it differs from the server's initial set. When it does not, every call that follows goes to the token provider or sets the user id, and with nothing deferred no call follows |
| SyncEngine.ProcessStartJob | Sources/Internal/ServerSyncProcessHandler.swift:51-116 | Registration is the first call; a failed registration changes nothing else; a successful one leaves the reconciled interests and the new device facts |
| SyncEngine.StartJobReplaysDeferred | Sources/Internal/ServerSyncProcessHandler.swift:51-116 | After a successful registration, unless the lane stalls, Start reports the user ids of the outstanding SetUserId jobs, in queue order |
| SyncEngine.ProcessStopJob | Sources/Internal/ServerSyncProcessHandler.swift:118-127 | Deletes the device remotely, then forgets device id, token and metadata, resets the confirmed hash to "", removes the user id, keeps the interests and emits a StopEvent |
| SyncEngine.DrainThroughStart | Sources/Internal/ServerSyncProcessHandler.swift:313-323 | Pops up to and including the first StartJob, or everything when there is none, persisting each pop |
| SyncEngine.HandleMessage | Sources/Internal/ServerSyncProcessHandler.swift:297-333 | Before registration every job but StartJob is a no-op; StartJob drains the queue through its first StartJob; any other handled job pops exactly the queue head; Stop unregisters and announces it; a stalled lane changes nothing |
| SyncEngine.HandleStartRegisters | Sources/Internal/ServerSyncProcessHandler.swift:311-312 | StartJob is handled, registered device or not, with the calls, events, store and device facts of `processStartJob`; its first call is the registration with the job's instance id and token |
| SyncEngine.HandleJobDispatches | Sources/Internal/ServerSyncProcessHandler.swift:325-331 | Once the device is registered, StopJob has the calls, events, store and device facts of `processStopJob` and makes exactly the delete call; every other job has the calls, events, store and device facts of `processJob`, and a job with a call of its own makes that call first |
| SyncEngine.SendMessage | Sources/Internal/ServerSyncProcessHandler.swift:35-43 | The job is appended durably; a skipped job stays queued; a handled one is processed, as SendMessageHandles states, and then the queue head is popped |
| SyncEngine.SendMessageHandles | Sources/Internal/ServerSyncProcessHandler.swift:35-43 | The appended job is handled: StartJob with the calls, events, store and device facts of `processStartJob`, and, once the device is registered, StopJob with those of `processStopJob` and every other job with those of `processJob`, over the queue holding the job |
| Startup.ReplayList | Sources/Internal/ServerSyncProcessHandler.swift:21-31 | The replayed jobs are exactly the saved ones that are not SetUserId jobs; without SetUserId jobs the list is the queue itself |
| Startup.ReplayListDistributes | Sources/Internal/ServerSyncProcessHandler.swift:21-31 | The filter keeps queue order: it distributes over concatenation |
| Startup.Replay | Sources/Internal/ServerSyncProcessHandler.swift:21-31 | Replay keeps the engine invariant and leaves a stalled engine unchanged |
| Startup.ConstructAsWritten | Sources/Internal/ServerSyncProcessHandler.swift:12-32 | Creation as written: open the queue and replay it without the SetUserId jobs; the engine invariant holds afterwards |
| Startup.AsWrittenKeepsHandledJob | Sources/Internal/ServerSyncProcessHandler.swift:21-31 | With the saved queue [SetUserId, ReportEvent] and a registered device, creation reports the event and pops the SetUserId job, so the reported event is still queued and saved |
| Startup.DropSkipped | Sources/Internal/ServerSyncProcessHandler.swift:21-31 | The queue becomes exactly the replayed list, persisted; a queue without skipped jobs is left as it is |
| Startup.Construct | Sources/Internal/ServerSyncProcessHandler.swift:12-32 | Creation with skipped jobs dropped first; the engine invariant holds afterwards |
| Startup.AsWrittenAgreesWithoutSetUserId | Sources/Internal/ServerSyncProcessHandler.swift:21-31 | Without SetUserId jobs in the saved queue the corrected creation is the SDK's |
| Startup.AlignedStep | Sources/Internal/ServerSyncProcessHandler.swift:297-333 | Handling the next replayed job keeps the queue as waiting jobs followed by the jobs still to replay; a skipped job joins the waiting ones |
| Startup.ReplayKeepsQueueAligned | Sources/Internal/ServerSyncProcessHandler.swift:297-333 | From an aligned queue, a replay that does not stall leaves no StartJob queued, and a queued job implies an unregistered device |
| Startup.ConstructLeavesOnlyWaitingJobs | Sources/Internal/ServerSyncProcessHandler.swift:21-32 | After corrected creation no StartJob is left; with a registered device the queue is empty |
| Startup.ConstructDropsHandledJob | Sources/Internal/ServerSyncProcessHandler.swift:21-31 | On the same saved queue as the finding, corrected creation reports the event once and leaves queue and file empty |

## Left out

- Network, HTTP and retry strategies: every call is answered by the next reply of a script. Infinite back-off is a call that eventually answers, or one that never returns (the stalled engine). The "just don't" policy of ApplicationStart is a single reply.
- SyncEngine.ProcessApplicationStartJob: its two calls go through the same reply script as the retried calls, so an empty script stalls the lane. In the SDK a single attempt always returns, and a network failure there is an error that skips the recording. The model covers that failure as a `Failed` reply, but it also admits the stall, which the SDK cannot reach.
- Interest names and user ids are compared by code point. Swift compares strings by canonical equivalence, so two differently normalised spellings of one name are one interest in the SDK and two in the model.
- Concurrency: the send lane, the handle lane, the store's synchronisation queue and the semaphore waits are left out. Steps are handled one at a time. The startup replay is modelled without any job sent while it runs.
- JSON encoding and file I/O of the job store: the file is the saved list, a missing file, or an undecodable file. Each write completes, fails to encode or fails to write. One write outcome applies to all writes of a run.
- The MD5 interests hash: an uninterpreted function of the interest set.
- The `Device`, `Instance` and `Metadata` persistence helpers are plain fields of the engine, kept apart from the state store. RemoveAll's effect on their keys is therefore not modelled. The engine does not use RemoveAll.
- The token provider's presence is fixed for a run. Its answers are script replies.
- getSubscriptions returns its values in an unspecified order. The model uses a set. Calls that send an interest array (SetSubscriptions jobs, the Start push, the re-registration push) are logged with the set of the array's elements.
- RefreshTokenJob has no effect in the SDK; the model gives it none.
- Log messages are not modelled.
- SyncEngine.ProcessStartJob: its contract names no events, no push call and no replay of the outstanding jobs. Those are stated by RegisteredStartAnnouncesChange, RegisteredStartPushesDifference and RegisteredStartReplaysDeferred about ProcessRegisteredStart, and the replay by StartJobReplaysDeferred about ProcessStartJob itself.

## Findings

| source | as written | input that shows it | evidently intended | confidence | as-written member | corrected member |
|---|---|---|---|---|---|---|
| Sources/Internal/ServerSyncProcessHandler.swift:21-31 | Creation replays the saved jobs but skips SetUserId jobs, while handling a job pops the queue head. A skipped SetUserId job is popped in place of the job handled after it | Saved queue [SetUserIdJob("alice"), ReportEventJob(ev)], registered device, service acknowledging: the event is tracked, SetUserId is popped, and [ReportEventJob(ev)] stays in queue and file, to be reported again at the next launch | Each handled job leaves the queue. After creation no StartJob is left, and jobs remain only while the device is unregistered | medium, not executed | Startup.AsWrittenKeepsHandledJob | Startup.ConstructLeavesOnlyWaitingJobs |

=== FILE: device_state_store.dfy ===
/**
 * The local device state store (`DeviceStateStore`): locally confirmed facts
 * kept in the platform key-value store. Interests live one per key under
 * `com.pusher.sdk.interests:<interest>`; the user id, the server-confirmed
 * interests hash and two one-shot flags have keys of their own.
 */
module DeviceStateStore {
  import opened Wrappers

  /** A stored value: the store only ever holds strings and booleans. */
  datatype Value = Text(text: string) | Flag(flag: bool)

  type Store = map<string, Value>

  const InterestsPrefix: string := "com.pusher.sdk.interests"
  const UserIdKey: string := "com.pusher.sdk.user.id"
  const HashKey: string := "interestsHash"
  const GlobalScopeId: string := "com.pusher.sdk"
  const CalledWithKey: string := "com.pusher.sdk.pni.user.id.called.with"
  const StartJobKey: string := "com.pusher.sdk.pni.start.job.enqueued"

  /** The result of a store operation that reports whether it changed anything. */
  datatype Update = Update(changed: bool, store: Store)

  predicate HasPrefix(s: string, p: string) {
    |p| <= |s| && s[..|p|] == p
  }

  function InterestKey(interest: string): string {
    InterestsPrefix + ":" + interest
  }

  /** How a stored value reads back as a string. */
  function Describe(v: Value): string {
    match v
    case Text(s) => s
    case Flag(b) => if b then "true" else "false"
  }

  /**
   * The shape every writer of the store keeps: a key under the interests
   * prefix is `prefix:i` and holds the string `i`, and the user id is a string.
   */
  ghost predicate Valid(m: Store) {
    && (forall k :: k in m && HasPrefix(k, InterestsPrefix) ==>
          |k| > |InterestsPrefix| && k[|InterestsPrefix|] == ':' && m[k] == Text(k[|InterestsPrefix| + 1..]))
    && (UserIdKey in m ==> m[UserIdKey].Text?)
  }

  /** `m` and `m'` agree on every key outside `keys`. */
  ghost predicate SameOutside(m: Store, m': Store, keys: set<string>) {
    forall k :: k !in keys ==> (k in m <==> k in m') && (k in m ==> m[k] == m'[k])
  }

  /** The stored interests (`getSubscriptions`); the platform lists them in no particular order. */
  function Subscriptions(m: Store): set<string> {
    set k | k in m && HasPrefix(k, InterestsPrefix) :: Describe(m[k])
  }

  lemma InterestKeyShape(i: string)
    ensures HasPrefix(InterestKey(i), InterestsPrefix)
    ensures |InterestKey(i)| > |InterestsPrefix| && InterestKey(i)[|InterestsPrefix|] == ':'
    ensures InterestKey(i)[|InterestsPrefix| + 1..] == i
  {
    assert InterestKey(i)[..|InterestsPrefix|] == InterestsPrefix;
  }

  /** In a valid store an interest key is exactly the key of the interest it holds. */
  lemma KeyOfStoredInterest(m: Store, k: string)
    requires Valid(m) && k in m && HasPrefix(k, InterestsPrefix)
    ensures k == InterestKey(Describe(m[k]))
  {
    var n := |InterestsPrefix|;
    assert k == k[..n] + [k[n]] + k[n + 1..];
  }

  /** An interest is stored exactly when its key is present. */
  lemma SubscribedIffKey(m: Store, i: string)
    requires Valid(m)
    ensures i in Subscriptions(m) <==> InterestKey(i) in m
  {
    InterestKeyShape(i);
    if i in Subscriptions(m) {
      var k :| k in m && HasPrefix(k, InterestsPrefix) && Describe(m[k]) == i;
      KeyOfStoredInterest(m, k);
    }
    if InterestKey(i) in m {
      assert Describe(m[InterestKey(i)]) == i;
    }
  }

  /** Keys outside the interests prefix never carry an interest. */
  lemma SubscriptionsIgnoreOtherKeys(m: Store, m': Store, keys: set<string>)
    requires SameOutside(m, m', keys)
    requires forall k :: k in keys ==> !HasPrefix(k, InterestsPrefix)
    ensures Subscriptions(m) == Subscriptions(m')
  {
    forall i | i in Subscriptions(m) ensures i in Subscriptions(m') {
      var k :| k in m && HasPrefix(k, InterestsPrefix) && Describe(m[k]) == i;
      assert k in m';
    }
    forall i | i in Subscriptions(m') ensures i in Subscriptions(m) {
      var k :| k in m' && HasPrefix(k, InterestsPrefix) && Describe(m'[k]) == i;
      assert k in m;
    }
  }

  /** `persist(interest:)`: adds one interest unless it is already stored. */
  function PersistInterest(m: Store, interest: string): (r: Update)
    requires Valid(m)
    ensures Valid(r.store)
    ensures r.changed <==> interest !in Subscriptions(m)
    ensures Subscriptions(r.store) == Subscriptions(m) + {interest}
    ensures !r.changed ==> r.store == m
    ensures SameOutside(m, r.store, {InterestKey(interest)})
  {
    var key := InterestKey(interest);
    SubscribedIffKey(m, interest);
    if key in m then
      Update(false, m)
    else
      var m' := m[key := Text(interest)];
      InterestKeyShape(interest);
      assert Subscriptions(m') == Subscriptions(m) + {interest} by {
        forall i | i in Subscriptions(m') ensures i in Subscriptions(m) + {interest} {
          var k :| k in m' && HasPrefix(k, InterestsPrefix) && Describe(m'[k]) == i;
          if k != key { assert k in m; }
        }
        assert Describe(m'[key]) == interest;
        forall i | i in Subscriptions(m) ensures i in Subscriptions(m') {
          var k :| k in m && HasPrefix(k, InterestsPrefix) && Describe(m[k]) == i;
          assert k in m';
        }
      }
      Update(true, m')
  }

  /** Deletes every key that starts with `prefix`. */
  function RemoveWithPrefix(m: Store, prefix: string): (m': Store)
    ensures forall k :: k in m' <==> k in m && !HasPrefix(k, prefix)
    ensures forall k :: k in m' ==> m'[k] == m[k]
  {
    map k | k in m && !HasPrefix(k, prefix) :: m[k]
  }

  /** `removeAllSubscriptions`: deletes exactly the interest keys. */
  function RemoveAllSubscriptions(m: Store): (m': Store)
    requires Valid(m)
    ensures Valid(m')
    ensures Subscriptions(m') == {}
    ensures forall k :: k in m' <==> k in m && !HasPrefix(k, InterestsPrefix)
    ensures forall k :: k in m' ==> m'[k] == m[k]
  {
    RemoveWithPrefix(m, InterestsPrefix)
  }

  lemma InterestKeysAreGlobal(k: string)
    ensures HasPrefix(k, InterestsPrefix) ==> HasPrefix(k, GlobalScopeId)
  {
    if HasPrefix(k, InterestsPrefix) {
      assert k[..|GlobalScopeId|] == k[..|InterestsPrefix|][..|GlobalScopeId|];
    }
  }

  /** `removeAll`: deletes every key under the SDK's global prefix. */
  function RemoveAll(m: Store): (m': Store)
    requires Valid(m)
    ensures Valid(m')
    ensures Subscriptions(m') == {}
    ensures GetUserId(m') == None
    ensures forall k :: k in m' <==> k in m && !HasPrefix(k, GlobalScopeId)
    ensures forall k :: k in m' ==> m'[k] == m[k]
    ensures HashKey in m ==> HashKey in m' && m'[HashKey] == m[HashKey]
  {
    var m' := RemoveWithPrefix(m, GlobalScopeId);
    assert Subscriptions(m') == {} by {
      forall k | k in m' ensures !HasPrefix(k, InterestsPrefix) {
        InterestKeysAreGlobal(k);
      }
    }
    assert UserIdKey[..|GlobalScopeId|] == GlobalScopeId;
    assert |HashKey| < |GlobalScopeId|;
    m'
  }

  /** The interest an interest key stands for. */
  function InterestOf(k: string): string {
    if |k| > |InterestsPrefix| then k[|InterestsPrefix| + 1..] else ""
  }

  function InterestKeys(s: set<string>): set<string> {
    set i | i in s :: InterestKey(i)
  }

  lemma InterestKeysShape(s: set<string>, k: string)
    requires k in InterestKeys(s)
    ensures HasPrefix(k, InterestsPrefix) && |k| > |InterestsPrefix| && k[|InterestsPrefix|] == ':'
    ensures InterestOf(k) in s && k == InterestKey(InterestOf(k))
  {
    var i :| i in s && k == InterestKey(i);
    InterestKeyShape(i);
  }

  /** One entry per interest of `s`, each under its own key. */
  function Entries(s: set<string>): map<string, Value> {
    map k | k in InterestKeys(s) :: Text(InterestOf(k))
  }

  lemma EntriesValid(m: Store, s: set<string>)
    requires Valid(m)
    ensures Valid(m + Entries(s))
  {
    var m' := m + Entries(s);
    forall k | k in m' && HasPrefix(k, InterestsPrefix)
      ensures |k| > |InterestsPrefix| && k[|InterestsPrefix|] == ':' && m'[k] == Text(k[|InterestsPrefix| + 1..])
    {
      if k in InterestKeys(s) {
        InterestKeysShape(s, k);
      }
    }
  }

  lemma EntriesSubscriptions(m: Store, s: set<string>)
    requires Valid(m) && Subscriptions(m) == {}
    ensures Subscriptions(m + Entries(s)) == s
  {
    var m' := m + Entries(s);
    forall i | i in s ensures i in Subscriptions(m') {
      InterestKeyShape(i);
      var k := InterestKey(i);
      assert k in InterestKeys(s);
      assert Describe(m'[k]) == i;
    }
    forall i | i in Subscriptions(m') ensures i in s {
      var k :| k in m' && HasPrefix(k, InterestsPrefix) && Describe(m'[k]) == i;
      if k in InterestKeys(s) {
        InterestKeysShape(s, k);
      } else {
        assert Describe(m[k]) in Subscriptions(m);
      }
    }
  }

  /** Adds every interest of `s` to a store that holds none. */
  function AddInterests(m: Store, s: set<string>): (m': Store)
    requires Valid(m) && Subscriptions(m) == {}
    ensures Valid(m')
    ensures Subscriptions(m') == s
    ensures SameOutside(m, m', InterestKeys(s))
  {
    EntriesValid(m, s);
    EntriesSubscriptions(m, s);
    m + Entries(s)
  }

  lemma SetOfMultisetOfSet(s: set<string>, interests: multiset<string>)
    requires multiset(s) == interests
    ensures s == set i | i in interests
  {
    forall i ensures i in s <==> i in interests {
      assert i in s <==> i in multiset(s);
    }
  }

  lemma InterestKeysArePrefixed(s: set<string>, k: string)
    requires !HasPrefix(k, InterestsPrefix)
    ensures k !in InterestKeys(s)
  {
    if k in InterestKeys(s) {
      InterestKeysShape(s, k);
    }
  }

  /**
   * `persist(interests:)`. The argument array is compared sorted with the
   * stored list and then added element by element, so only its multiset matters.
   */
  function PersistInterests(m: Store, interests: multiset<string>): (r: Update)
    requires Valid(m)
    ensures Valid(r.store)
    ensures r.changed <==> multiset(Subscriptions(m)) != interests
    ensures !r.changed ==> r.store == m
    ensures Subscriptions(r.store) == set i | i in interests
    ensures forall k :: !HasPrefix(k, InterestsPrefix) ==> (k in m <==> k in r.store) && (k in m ==> m[k] == r.store[k])
  {
    if multiset(Subscriptions(m)) == interests then
      SetOfMultisetOfSet(Subscriptions(m), interests);
      Update(false, m)
    else
      var s := set i | i in interests;
      var m' := AddInterests(RemoveAllSubscriptions(m), s);
      assert forall k :: !HasPrefix(k, InterestsPrefix) ==> k !in InterestKeys(s) by {
        forall k | !HasPrefix(k, InterestsPrefix) ensures k !in InterestKeys(s) {
          InterestKeysArePrefixed(s, k);
        }
      }
      Update(true, m')
  }

  /** A second identical `persist(interests:)` with a duplicate-free argument reports no change. */
  lemma PersistInterestsIdempotent(m: Store, interests: multiset<string>)
    requires Valid(m)
    requires forall i :: interests[i] <= 1
    ensures !PersistInterests(PersistInterests(m, interests).store, interests).changed
  {
    var m' := PersistInterests(m, interests).store;
    var s := Subscriptions(m');
    forall i ensures multiset(s)[i] == interests[i] {
      if i in interests { assert i in s; } else { assert i !in s; }
    }
    assert multiset(s) == interests;
  }

  /** With a repeated interest the sorted lists never match, so every call rewrites the store. */
  lemma PersistInterestsWithDuplicateAlwaysChanges(m: Store, interests: multiset<string>, i: string)
    requires Valid(m)
    requires interests[i] >= 2
    ensures PersistInterests(m, interests).changed
  {
    assert multiset(Subscriptions(m))[i] <= 1;
  }

  /** `remove(interest:)`. */
  function RemoveInterest(m: Store, interest: string): (r: Update)
    requires Valid(m)
    ensures Valid(r.store)
    ensures r.changed <==> interest in Subscriptions(m)
    ensures Subscriptions(r.store) == Subscriptions(m) - {interest}
    ensures SameOutside(m, r.store, {InterestKey(interest)})
  {
    var key := InterestKey(interest);
    SubscribedIffKey(m, interest);
    if key !in m then
      Update(false, m)
    else
      var m' := m - {key};
      assert Subscriptions(m') == Subscriptions(m) - {interest} by {
        forall i | i in Subscriptions(m') ensures i in Subscriptions(m) - {interest} {
          var k :| k in m' && HasPrefix(k, InterestsPrefix) && Describe(m'[k]) == i;
          KeyOfStoredInterest(m, k);
        }
        forall i | i in Subscriptions(m) - {interest} ensures i in Subscriptions(m') {
          var k :| k in m && HasPrefix(k, InterestsPrefix) && Describe(m[k]) == i;
          KeyOfStoredInterest(m, k);
          assert k in m';
        }
      }
      Update(true, m')
  }

  function GetUserId(m: Store): Option<string> {
    if UserIdKey in m && m[UserIdKey].Text? then Some(m[UserIdKey].text) else None
  }

  /** `setUserId`: writes only when no user id is stored, whatever the argument. */
  function SetUserId(m: Store, userId: string): (r: Update)
    requires Valid(m)
    ensures Valid(r.store)
    ensures r.changed <==> UserIdKey !in m
    ensures !r.changed ==> r.store == m
    ensures r.changed ==> GetUserId(r.store) == Some(userId)
    ensures !r.changed ==> GetUserId(r.store) == GetUserId(m)
    ensures GetUserId(r.store).Some?
    ensures SameOutside(m, r.store, {UserIdKey})
  {
    if UserIdKey in m then Update(false, m) else Update(true, m[UserIdKey := Text(userId)])
  }

  function RemoveUserId(m: Store): (m': Store)
    requires Valid(m)
    ensures Valid(m')
    ensures GetUserId(m') == None
    ensures SameOutside(m, m', {UserIdKey})
  {
    m - {UserIdKey}
  }

  function PersistServerConfirmedInterestsHash(m: Store, hash: string): (m': Store)
    requires Valid(m)
    ensures Valid(m')
    ensures SameOutside(m, m', {HashKey})
  {
    m[HashKey := Text(hash)]
  }

  /** The confirmed hash; "" stands for "never confirmed". */
  function GetServerConfirmedInterestsHash(m: Store): (h: string)
    ensures HashKey !in m ==> h == ""
  {
    if HashKey in m && m[HashKey].Text? then m[HashKey].text else ""
  }

  lemma HashRoundTrip(m: Store, hash: string)
    requires Valid(m)
    ensures GetServerConfirmedInterestsHash(PersistServerConfirmedInterestsHash(m, hash)) == hash
  {
  }

  function SetStartJobHasBeenEnqueued(m: Store, flag: bool): (m': Store)
    ensures SameOutside(m, m', {StartJobKey})
  {
    m[StartJobKey := Flag(flag)]
  }

  function GetStartJobHasBeenEnqueued(m: Store): (b: bool)
    ensures StartJobKey !in m ==> !b
    ensures StartJobKey in m && !m[StartJobKey].Flag? ==> !b
  {
    StartJobKey in m && m[StartJobKey].Flag? && m[StartJobKey].flag
  }

  lemma StartJobFlagRoundTrip(m: Store, flag: bool)
    ensures GetStartJobHasBeenEnqueued(SetStartJobHasBeenEnqueued(m, flag)) == flag
  {
  }

  function SetUserIdHasBeenCalledWith(m: Store, userId: string): (m': Store)
    ensures SameOutside(m, m', {CalledWithKey})
  {
    m[CalledWithKey := Text(userId)]
  }

  function GetUserIdPreviouslyCalledWith(m: Store): (r: Option<string>)
    ensures CalledWithKey !in m ==> r == None
  {
    if CalledWithKey in m && m[CalledWithKey].Text? then Some(m[CalledWithKey].text) else None
  }

  lemma CalledWithRoundTrip(m: Store, userId: string)
    ensures GetUserIdPreviouslyCalledWith(SetUserIdHasBeenCalledWith(m, userId)) == Some(userId)
  {
  }

  /** `clear`: forgets the two one-shot flags and nothing else. */
  function Clear(m: Store): (m': Store)
    ensures !GetStartJobHasBeenEnqueued(m')
    ensures GetUserIdPreviouslyCalledWith(m') == None
    ensures StartJobKey !in m' && CalledWithKey !in m'
    ensures SameOutside(m, m', {StartJobKey, CalledWithKey})
  {
    m - {StartJobKey, CalledWithKey}
  }
}

=== FILE: job_store.dfy ===
/**
 * The durable job queue (`ServerSyncJobStore`): an ordered list of jobs kept in
 * memory and rewritten in full to a file after every mutation. The file is part
 * of the state so that a restart can be modelled as reading it back.
 */
module SyncJobStore {
  import opened Wrappers
  import opened Jobs

  /** What the job file holds: nothing yet, bytes that do not decode, or a saved list. */
  datatype JobFile = Missing | Undecodable | Saved(jobs: seq<ServerSyncJob>)

  /** How one attempt to persist the list ends; both failures are logged and ignored. */
  datatype WriteOutcome = Written | EncodeFailed | WriteFailed

  datatype JobStore = JobStore(jobs: seq<ServerSyncJob>, file: JobFile)

  /** The list a fresh process reads: a missing or undecodable file reads as empty. */
  function LoadOperations(file: JobFile): seq<ServerSyncJob> {
    if file.Saved? then file.jobs else []
  }

  /**
   * Rewrites the file with `jobs`. An encode failure writes nothing and an
   * atomic write that fails leaves the previous file in place.
   */
  function PersistOperations(file: JobFile, jobs: seq<ServerSyncJob>, w: WriteOutcome): (r: JobFile)
    ensures w.Written? ==> LoadOperations(r) == jobs
    ensures !w.Written? ==> r == file
  {
    if w.Written? then Saved(jobs) else file
  }

  /** The file, read back, gives exactly the list held in memory. */
  predicate Synced(s: JobStore) {
    LoadOperations(s.file) == s.jobs
  }

  /** The store a process starts with. */
  function Open(file: JobFile): (s: JobStore)
    ensures Synced(s)
    ensures s.file == file
    ensures file.Saved? ==> s.jobs == file.jobs
    ensures !file.Saved? ==> s.jobs == []
  {
    JobStore(LoadOperations(file), file)
  }

  function IsEmpty(s: JobStore): (r: bool)
    ensures r <==> |s.jobs| == 0
  {
    s.jobs == []
  }

  function First(s: JobStore): (r: Option<ServerSyncJob>)
    ensures r.Some? <==> |s.jobs| > 0
    ensures r.Some? ==> r.value == s.jobs[0]
  {
    if |s.jobs| > 0 then Some(s.jobs[0]) else None
  }

  /** A copy of the list: later mutations of the store produce new values and leave it alone. */
  function ToList(s: JobStore): seq<ServerSyncJob> {
    s.jobs
  }

  function Append(s: JobStore, job: ServerSyncJob, w: WriteOutcome): (r: JobStore)
    ensures r.jobs == s.jobs + [job]
    ensures w.Written? ==> Synced(r)
    ensures !w.Written? ==> r.file == s.file
  {
    var jobs := s.jobs + [job];
    JobStore(jobs, PersistOperations(s.file, jobs, w))
  }

  /** Drops the head and rewrites the file; an empty store is left as it is and nothing is written. */
  function RemoveFirst(s: JobStore, w: WriteOutcome): (r: JobStore)
    ensures |s.jobs| > 0 ==> r.jobs == s.jobs[1..]
    ensures |s.jobs| > 0 && w.Written? ==> Synced(r)
    ensures |s.jobs| > 0 && !w.Written? ==> r.file == s.file
    ensures |s.jobs| == 0 ==> r == s
  {
    if |s.jobs| > 0 then
      var jobs := s.jobs[1..];
      JobStore(jobs, PersistOperations(s.file, jobs, w))
    else
      s
  }

  /** A mutation of the store, with the outcome of the write it triggers. */
  datatype QueueOp = AppendOp(job: ServerSyncJob, w: WriteOutcome) | RemoveFirstOp(w: WriteOutcome)

  function ApplyOp(s: JobStore, op: QueueOp): JobStore {
    match op
    case AppendOp(job, w) => Append(s, job, w)
    case RemoveFirstOp(w) => RemoveFirst(s, w)
  }

  function ApplyOps(s: JobStore, ops: seq<QueueOp>): JobStore
    decreases |ops|
  {
    if |ops| == 0 then s else ApplyOps(ApplyOp(s, ops[0]), ops[1..])
  }

  predicate AllWritten(ops: seq<QueueOp>) {
    forall i :: 0 <= i < |ops| ==> ops[i].w.Written?
  }

  function Appends(jobs: seq<ServerSyncJob>): (ops: seq<QueueOp>)
    ensures |ops| == |jobs|
    ensures forall i :: 0 <= i < |ops| ==> ops[i] == AppendOp(jobs[i], Written)
  {
    if |jobs| == 0 then [] else [AppendOp(jobs[0], Written)] + Appends(jobs[1..])
  }

  /** When every write succeeds, a restart after any run of mutations reads back the in-memory list. */
  lemma {:induction false} RestartRecoversQueue(s: JobStore, ops: seq<QueueOp>)
    requires Synced(s)
    requires AllWritten(ops)
    ensures Synced(ApplyOps(s, ops))
    ensures Open(ApplyOps(s, ops).file).jobs == ApplyOps(s, ops).jobs
    decreases |ops|
  {
    if |ops| > 0 {
      var s' := ApplyOp(s, ops[0]);
      assert Synced(s');
      assert AllWritten(ops[1..]) by {
        forall i | 0 <= i < |ops[1..]| ensures ops[1..][i].w.Written? {
          assert ops[1..][i] == ops[i + 1];
        }
      }
      RestartRecoversQueue(s', ops[1..]);
    }
  }

  /** Appending jobs one by one extends the list by exactly those jobs, in order. */
  lemma {:induction false} AppendsExtend(s: JobStore, jobs: seq<ServerSyncJob>)
    ensures ApplyOps(s, Appends(jobs)).jobs == s.jobs + jobs
    decreases |jobs|
  {
    if |jobs| > 0 {
      var ops := Appends(jobs);
      var s' := Append(s, jobs[0], Written);
      assert ops == [AppendOp(jobs[0], Written)] + Appends(jobs[1..]);
      assert ops[1..] == Appends(jobs[1..]);
      assert ApplyOps(s, ops) == ApplyOps(s', Appends(jobs[1..]));
      AppendsExtend(s', jobs[1..]);
      assert s.jobs + [jobs[0]] + jobs[1..] == s.jobs + jobs;
    }
  }

  /** Appending N jobs to a fresh installation and restarting yields the same N jobs in order. */
  lemma AppendThenRestart(jobs: seq<ServerSyncJob>)
    ensures Open(ApplyOps(Open(Missing), Appends(jobs)).file).jobs == jobs
  {
    AppendsExtend(Open(Missing), jobs);
    RestartRecoversQueue(Open(Missing), Appends(jobs));
  }
}

=== FILE: jobs.dfy ===
/**
 * The jobs of the synchronisation queue: one case per intent a caller can
 * record, each carrying only what is needed to replay it later.
 */
module Jobs {

  /** Device metadata sent to the service (the `Metadata` record of the SDK). */
  datatype Metadata = Metadata(sdkVersion: string, iosVersion: string, macosVersion: string)

  /** A notification event to report; only the instance it belongs to matters to the engine. */
  datatype EventType = EventType(instanceId: string, publishId: string, kind: string)

  /**
   * `localInterestsChanged` is fixed when the job is enqueued: it records whether
   * the local interest set changed, and so whether the server must be told.
   */
  datatype ServerSyncJob =
    | StartJob(instanceId: string, token: string)
    | StopJob
    | SubscribeJob(interest: string, localInterestsChanged: bool)
    | UnsubscribeJob(interest: string, localInterestsChanged: bool)
    | SetSubscriptions(interests: seq<string>, localInterestsChanged: bool)
    | SetUserIdJob(userId: string)
    | ApplicationStartJob(metadata: Metadata)
    | RefreshTokenJob(newToken: string)
    | ReportEventJob(eventType: EventType)

  /** Jobs that Start reconciliation cannot fold and keeps for replay after registration. */
  predicate IsDeferred(job: ServerSyncJob) {
    job.SetUserIdJob? || job.RefreshTokenJob?
  }

  predicate AllDeferred(jobs: seq<ServerSyncJob>) {
    forall i :: 0 <= i < |jobs| ==> IsDeferred(jobs[i])
  }

  /** Interest jobs whose local effect was nil: the server needs no call for them. */
  predicate IsLocalNoOp(job: ServerSyncJob) {
    match job
    case SubscribeJob(_, changed) => !changed
    case UnsubscribeJob(_, changed) => !changed
    case SetSubscriptions(_, changed) => !changed
    case _ => false
  }

  /** No job of `jobs` is a StartJob. */
  predicate StartFree(jobs: seq<ServerSyncJob>) {
    forall i :: 0 <= i < |jobs| ==> !jobs[i].StartJob?
  }
}

=== FILE: reconcile.dfy ===
/**
 * Start reconciliation: the jobs queued before the device was registered are
 * folded, in order, over the interest set the server reports for the new
 * device. The fold yields the interest set the device should hold and the
 * jobs that need a registered device and are replayed afterwards.
 */
module Reconciliation {
  import opened Jobs

  datatype Reconciled = Reconciled(interests: set<string>, outstanding: seq<ServerSyncJob>)

  /** The effect of one queued job on the fold. */
  function Step(acc: Reconciled, job: ServerSyncJob, initial: set<string>): Reconciled {
    match job
    case StartJob(_, _) => acc
    case SubscribeJob(interest, _) => acc.(interests := acc.interests + {interest})
    case UnsubscribeJob(interest, _) => acc.(interests := acc.interests - {interest})
    case SetSubscriptions(interests, _) => acc.(interests := set i | i in interests)
    case StopJob => Reconciled(initial, [])
    case SetUserIdJob(_) => acc.(outstanding := acc.outstanding + [job])
    case ApplicationStartJob(_) => acc
    case RefreshTokenJob(_) => acc.(outstanding := acc.outstanding + [job])
    case ReportEventJob(_) => acc
  }

  /** The left fold of `Step` over `jobs`, starting from `initial` and no outstanding jobs. */
  function Reconcile(jobs: seq<ServerSyncJob>, initial: set<string>): Reconciled
    decreases |jobs|
  {
    if |jobs| == 0 then Reconciled(initial, [])
    else Step(Reconcile(jobs[..|jobs| - 1], initial), jobs[|jobs| - 1], initial)
  }

  /** The position of the last StopJob, or -1 when there is none. */
  function LastStop(jobs: seq<ServerSyncJob>): (r: int)
    ensures -1 <= r < |jobs|
    ensures r >= 0 ==> jobs[r].StopJob?
    ensures forall i :: r < i < |jobs| ==> !jobs[i].StopJob?
    decreases |jobs|
  {
    if |jobs| == 0 then -1
    else if jobs[|jobs| - 1].StopJob? then |jobs| - 1
    else LastStop(jobs[..|jobs| - 1])
  }

  /** The deferred jobs of `jobs`, in their original order. */
  function Deferred(jobs: seq<ServerSyncJob>): (r: seq<ServerSyncJob>)
    ensures |r| <= |jobs|
    decreases |jobs|
  {
    if |jobs| == 0 then []
    else if IsDeferred(jobs[|jobs| - 1]) then Deferred(jobs[..|jobs| - 1]) + [jobs[|jobs| - 1]]
    else Deferred(jobs[..|jobs| - 1])
  }

  /** `Deferred` keeps exactly the deferred jobs. */
  lemma {:induction false} DeferredMembers(jobs: seq<ServerSyncJob>)
    ensures forall j :: j in Deferred(jobs) <==> j in jobs && IsDeferred(j)
    decreases |jobs|
  {
    if |jobs| > 0 {
      var prefix := jobs[..|jobs| - 1];
      DeferredMembers(prefix);
      assert jobs == prefix + [jobs[|jobs| - 1]];
    }
  }

  /** Whether `job` settles if `interest` belongs to the set, whatever came before it. */
  predicate Settles(job: ServerSyncJob, interest: string) {
    match job
    case SubscribeJob(i, _) => i == interest
    case UnsubscribeJob(i, _) => i == interest
    case SetSubscriptions(_, _) => true
    case StopJob => true
    case _ => false
  }

  /** What a settling job says about `interest`. */
  predicate Verdict(job: ServerSyncJob, interest: string, initial: set<string>)
    requires Settles(job, interest)
  {
    match job
    case SubscribeJob(_, _) => true
    case UnsubscribeJob(_, _) => false
    case SetSubscriptions(interests, _) => interest in interests
    case StopJob => interest in initial
  }

  /** The position of the last job that settles `interest`, or -1. */
  function LastSettler(jobs: seq<ServerSyncJob>, interest: string): (r: int)
    ensures -1 <= r < |jobs|
    ensures r >= 0 ==> Settles(jobs[r], interest)
    ensures forall i :: r < i < |jobs| ==> !Settles(jobs[i], interest)
    decreases |jobs|
  {
    if |jobs| == 0 then -1
    else if Settles(jobs[|jobs| - 1], interest) then |jobs| - 1
    else LastSettler(jobs[..|jobs| - 1], interest)
  }

  /**
   * An interest is in the reconciled set exactly when the last job that
   * settles it says so, or, when no job settles it, when the server's
   * initial set holds it.
   */
  lemma {:induction false} ReconcileMembership(jobs: seq<ServerSyncJob>, initial: set<string>, interest: string)
    ensures var k := LastSettler(jobs, interest);
            interest in Reconcile(jobs, initial).interests <==>
              if k < 0 then interest in initial else Verdict(jobs[k], interest, initial)
    decreases |jobs|
  {
    if |jobs| > 0 {
      var prefix := jobs[..|jobs| - 1];
      ReconcileMembership(prefix, initial, interest);
      if !Settles(jobs[|jobs| - 1], interest) {
        var k := LastSettler(prefix, interest);
        assert k >= 0 ==> jobs[k] == prefix[k];
      }
    }
  }

  /** The outstanding list holds exactly the deferred jobs after the last StopJob, in order. */
  lemma {:induction false} ReconcileOutstanding(jobs: seq<ServerSyncJob>, initial: set<string>)
    ensures Reconcile(jobs, initial).outstanding == Deferred(jobs[LastStop(jobs) + 1..])
    decreases |jobs|
  {
    if |jobs| > 0 {
      var prefix := jobs[..|jobs| - 1];
      var last := jobs[|jobs| - 1];
      var rec := Reconcile(prefix, initial);
      assert Reconcile(jobs, initial) == Step(rec, last, initial);
      StepOutstanding(rec, last, initial);
      if last.StopJob? {
        assert LastStop(jobs) == |jobs| - 1;
        assert jobs[LastStop(jobs) + 1..] == [];
      } else {
        var k := LastStop(prefix);
        assert LastStop(jobs) == k;
        ReconcileOutstanding(prefix, initial);
        DeferredAfterSnoc(jobs, k);
      }
    }
  }

  /** The deferred jobs after position `k` gain the last job when it is deferred. */
  lemma DeferredAfterSnoc(jobs: seq<ServerSyncJob>, k: int)
    requires -1 <= k < |jobs| - 1
    ensures Deferred(jobs[k + 1..]) ==
              Deferred(jobs[..|jobs| - 1][k + 1..]) + (if IsDeferred(jobs[|jobs| - 1]) then [jobs[|jobs| - 1]] else [])
  {
    assert jobs[k + 1..] == jobs[..|jobs| - 1][k + 1..] + [jobs[|jobs| - 1]];
    DeferredSnoc(jobs[..|jobs| - 1][k + 1..], jobs[|jobs| - 1]);
  }

  /** One step of the fold: StopJob empties the outstanding list, a deferred job joins its end. */
  lemma StepOutstanding(acc: Reconciled, job: ServerSyncJob, initial: set<string>)
    ensures job.StopJob? ==> Step(acc, job, initial).outstanding == []
    ensures !job.StopJob? ==>
              Step(acc, job, initial).outstanding == acc.outstanding + (if IsDeferred(job) then [job] else [])
  {
  }

  lemma DeferredSnoc(jobs: seq<ServerSyncJob>, job: ServerSyncJob)
    ensures Deferred(jobs + [job]) == Deferred(jobs) + (if IsDeferred(job) then [job] else [])
  {
    assert (jobs + [job])[..|jobs|] == jobs;
  }

  /** A StopJob discards everything queued before it. */
  lemma {:induction false} StopDiscardsPrefix(before: seq<ServerSyncJob>, after: seq<ServerSyncJob>, initial: set<string>)
    ensures Reconcile(before + [StopJob] + after, initial) == Reconcile(after, initial)
    decreases |after|
  {
    var jobs := before + [StopJob] + after;
    if |after| == 0 {
      assert jobs[..|jobs| - 1] == before;
    } else {
      assert jobs[..|jobs| - 1] == before + [StopJob] + after[..|after| - 1];
      StopDiscardsPrefix(before, after[..|after| - 1], initial);
    }
  }

  /** StartJob, ApplicationStartJob and ReportEventJob have no effect on the fold. */
  lemma {:induction false} IgnoredJobIsInvisible(before: seq<ServerSyncJob>, job: ServerSyncJob, after: seq<ServerSyncJob>, initial: set<string>)
    requires job.StartJob? || job.ApplicationStartJob? || job.ReportEventJob?
    ensures Reconcile(before + [job] + after, initial) == Reconcile(before + after, initial)
    decreases |after|
  {
    var jobs := before + [job] + after;
    if |after| == 0 {
      assert jobs[..|jobs| - 1] == before;
      assert before + after == before;
    } else {
      assert jobs[..|jobs| - 1] == before + [job] + after[..|after| - 1];
      assert (before + after)[..|before + after| - 1] == before + after[..|after| - 1];
      IgnoredJobIsInvisible(before, job, after[..|after| - 1], initial);
    }
  }

  /** Subscribe a, Unsubscribe a, Subscribe b, Start over an empty initial set gives {b}. */
  lemma ExampleSubscribeUnsubscribe()
    ensures var jobs := [SubscribeJob("a", true), UnsubscribeJob("a", true), SubscribeJob("b", true), StartJob("i", "t")];
            Reconcile(jobs, {}).interests == {"b"}
  {
    var jobs := [SubscribeJob("a", true), UnsubscribeJob("a", true), SubscribeJob("b", true), StartJob("i", "t")];
    assert jobs[..1][..0] == [] && jobs[..2][..1] == jobs[..1] && jobs[..3][..2] == jobs[..2];
    assert Reconcile(jobs[..1], {}).interests == {"a"};
    assert Reconcile(jobs[..2], {}).interests == {};
    assert Reconcile(jobs[..3], {}).interests == {"b"};
  }

  /** Subscribe a, Stop, Subscribe b, Start over initial {x} gives {x, b}: the Stop discards a. */
  lemma ExampleStopResets()
    ensures var jobs := [SubscribeJob("a", true), StopJob, SubscribeJob("b", true), StartJob("i", "t")];
            Reconcile(jobs, {"x"}).interests == {"x", "b"}
  {
    var jobs := [SubscribeJob("a", true), StopJob, SubscribeJob("b", true), StartJob("i", "t")];
    assert jobs[..3][..2] == jobs[..2];
    assert Reconcile(jobs[..2], {"x"}).interests == {"x"};
    assert Reconcile(jobs[..3], {"x"}).interests == {"x", "b"};
  }
}

=== FILE: startup.dfy ===
/**
 * What the engine does when it is created: it opens the durable job queue
 * and hands every saved job, except the SetUserId jobs, to the processing
 * lane in order, as if each had just been sent.
 *
 * Skipping a job in the replay does not take it out of the queue, while
 * handling a job pops whatever is at the queue's head. `ConstructAsWritten`
 * is creation as the SDK does it, and `AsWrittenKeepsHandledJob` exhibits a
 * saved queue on which the handled job survives and the skipped one is
 * popped in its place. `Construct` first drops the skipped jobs from the
 * queue, so that the replayed list and the queue agree, and
 * `ConstructLeavesOnlyWaitingJobs` proves that it then ends with no job left
 * but those that wait for a registration.
 */
module Startup {
  import opened Wrappers
  import opened Jobs
  import opened SyncJobStore
  import opened DeviceStateStore
  import opened SyncEngine

  /** The jobs that creation replays: the saved ones in order, without the SetUserId jobs. */
  function ReplayList(jobs: seq<ServerSyncJob>): (r: seq<ServerSyncJob>)
    ensures forall j :: j in r <==> j in jobs && !j.SetUserIdJob?
    ensures |r| <= |jobs|
    ensures (forall i :: 0 <= i < |jobs| ==> !jobs[i].SetUserIdJob?) ==> r == jobs
  {
    if jobs == [] then []
    else if jobs[0].SetUserIdJob? then ReplayList(jobs[1..])
    else [jobs[0]] + ReplayList(jobs[1..])
  }

  /** The filter keeps the order of the jobs: it distributes over concatenation. */
  lemma {:induction false} ReplayListDistributes(a: seq<ServerSyncJob>, b: seq<ServerSyncJob>)
    ensures ReplayList(a + b) == ReplayList(a) + ReplayList(b)
    decreases |a|
  {
    if a == [] {
      assert a + b == b;
    } else {
      assert (a + b)[1..] == a[1..] + b;
      ReplayListDistributes(a[1..], b);
    }
  }

  /** Handles each job of `jobs` in turn, as the processing lane does with the replayed jobs. */
  function Replay(e: Engine, env: Env, jobs: seq<ServerSyncJob>): (e': Engine)
    requires Wf(e)
    ensures Wf(e')
    ensures e.stalled ==> e' == e
    decreases |jobs|
  {
    if jobs == [] then e else Replay(HandleMessage(e, env, jobs[0]), env, jobs[1..])
  }

  /** The engine before any job is handled: the persisted device facts and store, nothing called yet. */
  function Fresh(q: JobStore, store: Store, device: DeviceFacts, remote: Script): Engine {
    Engine(q, store, device, [], [], remote, false)
  }

  /** Creation as the SDK does it: replay the saved jobs but SetUserId, against the full queue. */
  function ConstructAsWritten(env: Env, file: JobFile, store: Store, device: DeviceFacts, remote: Script): (e: Engine)
    requires Valid(store) && (device.id.Some? ==> device.apnsToken.Some?)
    ensures Wf(e)
  {
    var q := Open(file);
    Replay(Fresh(q, store, device, remote), env, ReplayList(q.jobs))
  }

  /** Takes the jobs creation will not replay out of the queue, writing the file only when one is dropped. */
  function DropSkipped(q: JobStore, w: WriteOutcome): (r: JobStore)
    ensures r.jobs == ReplayList(q.jobs)
    ensures ReplayList(q.jobs) == q.jobs ==> r == q
    ensures Synced(q) && w.Written? ==> Synced(r)
    ensures !w.Written? ==> r.file == q.file
  {
    var kept := ReplayList(q.jobs);
    if kept == q.jobs then q else JobStore(kept, PersistOperations(q.file, kept, w))
  }

  /** Creation with the skipped jobs dropped first, so that each handled job is the queue's head. */
  function Construct(env: Env, file: JobFile, store: Store, device: DeviceFacts, remote: Script): (e: Engine)
    requires Valid(store) && (device.id.Some? ==> device.apnsToken.Some?)
    ensures Wf(e)
  {
    var q := DropSkipped(Open(file), env.writes);
    Replay(Fresh(q, store, device, remote), env, q.jobs)
  }

  /** Without SetUserId jobs in the saved queue the two creations are the same. */
  lemma AsWrittenAgreesWithoutSetUserId(env: Env, file: JobFile, store: Store, device: DeviceFacts, remote: Script)
    requires Valid(store) && (device.id.Some? ==> device.apnsToken.Some?)
    requires forall i :: 0 <= i < |LoadOperations(file)| ==> !LoadOperations(file)[i].SetUserIdJob?
    ensures ConstructAsWritten(env, file, store, device, remote) == Construct(env, file, store, device, remote)
  {
    var q := Open(file);
    assert ReplayList(q.jobs) == q.jobs;
  }

  /**
   * While `jobs` is replayed the queue is some jobs `waiting` for a
   * registration followed by exactly the jobs still to replay; a waiting job
   * exists only while the device is unregistered, and none is a StartJob.
   */
  ghost predicate Aligned(e: Engine, waiting: seq<ServerSyncJob>, jobs: seq<ServerSyncJob>) {
    !e.stalled ==>
      && e.queue.jobs == waiting + jobs
      && StartFree(waiting)
      && (waiting != [] ==> e.device.id.None?)
  }

  /** Draining through the first StartJob of `waiting + [job] + rest`, with `waiting` StartJob-free, leaves `rest`. */
  lemma DrainPastWaiting(waiting: seq<ServerSyncJob>, job: ServerSyncJob, rest: seq<ServerSyncJob>, after: seq<ServerSyncJob>)
    requires StartFree(waiting) && job.StartJob?
    requires DrainedThroughStart(waiting + ([job] + rest), after)
    ensures after == rest
  {
    var before := waiting + ([job] + rest);
    assert before[..|waiting|] == waiting;
    assert before[|waiting|] == job;
    assert before[|waiting| + 1..] == rest;
  }

  lemma StartFreeSnoc(waiting: seq<ServerSyncJob>, job: ServerSyncJob)
    requires StartFree(waiting) && !job.StartJob?
    ensures StartFree(waiting + [job])
  {
    forall i | 0 <= i < |waiting + [job]| ensures !(waiting + [job])[i].StartJob? {
      if i < |waiting| {
        assert (waiting + [job])[i] == waiting[i];
      }
    }
  }

  lemma ConsSplit(jobs: seq<ServerSyncJob>)
    requires |jobs| > 0
    ensures jobs == [jobs[0]] + jobs[1..] && PopFront([jobs[0]] + jobs[1..]) == jobs[1..]
  {
  }

  /** Handling the next job to replay keeps the queue aligned, with one more waiting job when it is skipped. */
  lemma AlignedStep(e: Engine, env: Env, waiting: seq<ServerSyncJob>, jobs: seq<ServerSyncJob>) returns (waiting': seq<ServerSyncJob>)
    requires Wf(e) && !e.stalled && |jobs| > 0 && Aligned(e, waiting, jobs)
    ensures Aligned(HandleMessage(e, env, jobs[0]), waiting', jobs[1..])
  {
    var job := jobs[0];
    var rest := jobs[1..];
    var e1 := HandleMessage(e, env, job);
    ConsSplit(jobs);
    if e1.stalled {
      waiting' := [];
    } else if job.StartJob? {
      DrainPastWaiting(waiting, job, rest, e1.queue.jobs);
      waiting' := [];
    } else if e.device.id.None? {
      ConcatAssoc(waiting, [job], rest);
      StartFreeSnoc(waiting, job);
      waiting' := waiting + [job];
    } else {
      waiting' := [];
    }
  }

  /** Replaying `jobs` from an aligned queue ends with only waiting jobs, none a StartJob. */
  lemma {:induction false} ReplayKeepsQueueAligned(e: Engine, env: Env, waiting: seq<ServerSyncJob>, jobs: seq<ServerSyncJob>)
    requires Wf(e) && Aligned(e, waiting, jobs)
    ensures var e' := Replay(e, env, jobs);
            !e'.stalled ==> StartFree(e'.queue.jobs) && (e'.queue.jobs != [] ==> e'.device.id.None?)
    decreases |jobs|
  {
    if jobs == [] {
      assert waiting + jobs == waiting;
    } else if e.stalled {
      ReplayKeepsQueueAligned(HandleMessage(e, env, jobs[0]), env, waiting, jobs[1..]);
    } else {
      var waiting' := AlignedStep(e, env, waiting, jobs);
      ReplayKeepsQueueAligned(HandleMessage(e, env, jobs[0]), env, waiting', jobs[1..]);
    }
  }

  /**
   * Once creation has replayed the queue without stalling, no StartJob is
   * left, and a job is left only while the device is unregistered: those
   * jobs wait for the next StartJob. With a registered device the queue is
   * empty.
   */
  lemma ConstructLeavesOnlyWaitingJobs(env: Env, file: JobFile, store: Store, device: DeviceFacts, remote: Script)
    requires Valid(store) && (device.id.Some? ==> device.apnsToken.Some?)
    ensures var e := Construct(env, file, store, device, remote);
            && (!e.stalled ==> StartFree(e.queue.jobs))
            && (!e.stalled && e.device.id.Some? ==> e.queue.jobs == [])
  {
    var q := DropSkipped(Open(file), env.writes);
    var e0 := Fresh(q, store, device, remote);
    assert e0.queue.jobs == [] + q.jobs;
    ReplayKeepsQueueAligned(e0, env, [], q.jobs);
  }

  /** A registered device with an empty store reports an event the service acknowledges, then pops the queue. */
  lemma ReplayAcknowledgedReport(q: JobStore, env: Env, device: DeviceFacts, ev: EventType)
    requires device.id.Some? && device.apnsToken.Some?
    ensures Replay(Fresh(q, map[], device, Script([], [Ack], [])), env, [ReportEventJob(ev)]) ==
              Engine(RemoveFirst(q, env.writes), map[], device, [], [TrackCall(ev.instanceId, device.id.value, ev)],
                     Script([], [], []), false)
  {
    var e0 := Fresh(q, map[], device, Script([], [Ack], []));
    var job := ReportEventJob(ev);
    ProcessJobSettles(e0, env, job);
    var e2 := HandleMessage(e0, env, job);
    assert Replay(e0, env, [job]) == Replay(e2, env, []);
  }

  /**
   * The saved queue [SetUserId, ReportEvent] with a registered device and a
   * service that acknowledges: creation reports the event once, then pops
   * the SetUserId job, so the reported event stays in the queue and in the
   * file and is reported again at the next launch.
   */
  lemma AsWrittenKeepsHandledJob()
    ensures var ev := EventType("instance", "publish", "Open");
            var env := Env("instance", false, Metadata("1", "17", ""), (s: set<string>) => "", Written);
            var device := DeviceFacts(Some("device"), Some("token"), Some("instance"), None);
            var file := Saved([SetUserIdJob("alice"), ReportEventJob(ev)]);
            var e := ConstructAsWritten(env, file, map[], device, Script([], [Ack], []));
            && !e.stalled
            && e.device.id == Some("device")
            && e.calls == [TrackCall("instance", "device", ev)]
            && e.queue.jobs == [ReportEventJob(ev)]
            && Open(e.queue.file).jobs == [ReportEventJob(ev)]
  {
    var ev := EventType("instance", "publish", "Open");
    var env := Env("instance", false, Metadata("1", "17", ""), (s: set<string>) => "", Written);
    var device := DeviceFacts(Some("device"), Some("token"), Some("instance"), None);
    var jobs := [SetUserIdJob("alice"), ReportEventJob(ev)];
    assert ReplayList(jobs) == [ReportEventJob(ev)] by {
      assert jobs[1..] == [ReportEventJob(ev)];
      assert jobs[1..][1..] == [];
    }
    var q := Open(Saved(jobs));
    ReplayAcknowledgedReport(q, env, device, ev);
    assert RemoveFirst(q, Written).jobs == [ReportEventJob(ev)];
  }

  /** The same launch with the skipped job dropped first: the event is reported and leaves the queue. */
  lemma ConstructDropsHandledJob()
    ensures var ev := EventType("instance", "publish", "Open");
            var env := Env("instance", false, Metadata("1", "17", ""), (s: set<string>) => "", Written);
            var device := DeviceFacts(Some("device"), Some("token"), Some("instance"), None);
            var file := Saved([SetUserIdJob("alice"), ReportEventJob(ev)]);
            var e := Construct(env, file, map[], device, Script([], [Ack], []));
            && !e.stalled
            && e.calls == [TrackCall("instance", "device", ev)]
            && e.queue.jobs == []
            && Open(e.queue.file).jobs == []
  {
    var ev := EventType("instance", "publish", "Open");
    var env := Env("instance", false, Metadata("1", "17", ""), (s: set<string>) => "", Written);
    var device := DeviceFacts(Some("device"), Some("token"), Some("instance"), None);
    var jobs := [SetUserIdJob("alice"), ReportEventJob(ev)];
    assert ReplayList(jobs) == [ReportEventJob(ev)] by {
      assert jobs[1..] == [ReportEventJob(ev)];
      assert jobs[1..][1..] == [];
    }
    var q := DropSkipped(Open(Saved(jobs)), Written);
    assert q == JobStore([ReportEventJob(ev)], Saved([ReportEventJob(ev)]));
    ReplayAcknowledgedReport(q, env, device, ev);
    assert RemoveFirst(q, Written) == JobStore([], Saved([]));
  }
}

=== FILE: sync_engine.dfy ===
/**
 * The sync engine (`ServerSyncProcessHandler`) as a sequential state machine.
 *
 * Handling one job reads and writes three pieces of state: the durable job
 * queue, the local device state store, and the device facts (device id, APNs
 * token, instance id, metadata). Every call to the remote service or to the
 * customer's token provider is logged in `calls` and answered by the next
 * reply of a script. A call for which the script holds no further reply never
 * returns, as a call retried forever against an unreachable service or a
 * token provider that never calls back: the engine is then `stalled` and
 * every later step leaves it as it is.
 */
module SyncEngine {
  import opened Wrappers
  import opened Jobs
  import opened SyncJobStore
  import opened DeviceStateStore
  import opened Reconciliation

  /** How a remote call can fail once its retry policy has given up. */
  datatype ApiError = DeviceNotFound | RequestRejected(reason: string)

  /** A device as the service registers it. */
  datatype Device = Device(id: string, initialInterestSet: Option<set<string>>)

  datatype RegisterReply = Registered(device: Device) | RegisterFailed(error: ApiError)
  datatype ApiReply = Ack | Failed(error: ApiError)
  /** How the token provider answers: a signed token, an error in its callback, or a thrown error. */
  datatype TokenReply = TokenIssued(jwt: string) | TokenFailed | FetchThrew

  /** The replies the collaborators will give, each stream consumed in order. */
  datatype Script = Script(registrations: seq<RegisterReply>, replies: seq<ApiReply>, tokens: seq<TokenReply>)

  /** The calls the engine makes to the service and to the token provider. */
  datatype Call =
    | RegisterCall(instanceId: string, token: string, metadata: Metadata)
    | DeleteDeviceCall(deviceId: string)
    | SubscribeCall(deviceId: string, interest: string)
    | UnsubscribeCall(deviceId: string, interest: string)
    | SetSubscriptionsCall(deviceId: string, interests: set<string>)
    | TrackCall(instanceId: string, deviceId: string, eventType: EventType)
    | SyncMetadataCall(deviceId: string, metadata: Metadata)
    | SetUserIdCall(deviceId: string, jwt: string)
    | FetchTokenCall(userId: string)

  datatype UserIdError = TokenProviderMissing | TokenFetchFailed | FetchTokenThrew | ServerSyncFailed(error: ApiError)

  /** Lifecycle events handed to the host application. */
  datatype SyncEvent =
    | InterestsChangedEvent(interests: set<string>)
    | UserIdSetEvent(userId: string, error: Option<UserIdError>)
    | StopEvent

  /** Scalar device facts kept outside the state store. */
  datatype DeviceFacts = DeviceFacts(id: Option<string>, apnsToken: Option<string>, instanceId: Option<string>, metadata: Option<Metadata>)

  /**
   * What the engine is configured with: its instance id, whether a token
   * provider is installed, the metadata of the running SDK, the interests
   * hash (an MD5 digest in the SDK, left uninterpreted here) and how queue
   * writes end.
   */
  datatype Env = Env(
    instanceId: string,
    hasTokenProvider: bool,
    currentMetadata: Metadata,
    interestsHash: set<string> -> string,
    writes: WriteOutcome)

  datatype Engine = Engine(
    queue: JobStore,
    store: Store,
    device: DeviceFacts,
    events: seq<SyncEvent>,
    calls: seq<Call>,
    remote: Script,
    stalled: bool)

  /** The invariant every step keeps: a well-shaped store, and a token for every device id. */
  ghost predicate Wf(e: Engine) {
    Valid(e.store) && (e.device.id.Some? ==> e.device.apnsToken.Some?)
  }

  /** What per-job processing needs: a running lane and a registered device with a token. */
  ghost predicate Ready(e: Engine) {
    !e.stalled && Valid(e.store) && e.device.id.Some? && e.device.apnsToken.Some?
  }

  /** No event of `events` announces new interests or a stop. */
  predicate OnlyUserIdEvents(events: seq<SyncEvent>) {
    forall i :: 0 <= i < |events| ==> events[i].UserIdSetEvent?
  }

  /** `e'` extends `e`'s call log and event list without rewriting them. */
  ghost predicate Extends(e: Engine, e': Engine) {
    e.calls <= e'.calls && e.events <= e'.events
  }

  lemma ExtendsTransitive(a: Engine, b: Engine, c: Engine)
    requires Extends(a, b) && Extends(b, c)
    ensures Extends(a, c)
  {
    assert c.calls[..|a.calls|] == c.calls[..|b.calls|][..|a.calls|];
    assert c.events[..|a.events|] == c.events[..|b.events|][..|a.events|];
  }

  /** A call made first after `e` stays first after `e` while the log grows. */
  lemma FirstCallKept(e: Engine, e1: Engine, e2: Engine)
    requires Extends(e, e1) && Extends(e1, e2)
    ensures Extends(e, e2)
    ensures |e1.calls| > |e.calls| ==> |e2.calls| > |e.calls| && e2.calls[|e.calls|] == e1.calls[|e.calls|]
  {
    ExtendsTransitive(e, e1, e2);
    assert e2.calls[..|e1.calls|] == e1.calls;
  }

  /** Issues a remote call that returns no value and consumes its reply. */
  function Request(e: Engine, call: Call): (Engine, Option<ApiReply>) {
    if |e.remote.replies| == 0 then
      (e.(calls := e.calls + [call], stalled := true), None)
    else
      (e.(calls := e.calls + [call], remote := e.remote.(replies := e.remote.replies[1..])), Some(e.remote.replies[0]))
  }

  /** Asks the token provider for a token for `userId` and waits for its answer. */
  function FetchToken(e: Engine, userId: string): (Engine, Option<TokenReply>) {
    if |e.remote.tokens| == 0 then
      (e.(calls := e.calls + [FetchTokenCall(userId)], stalled := true), None)
    else
      (e.(calls := e.calls + [FetchTokenCall(userId)], remote := e.remote.(tokens := e.remote.tokens[1..])),
       Some(e.remote.tokens[0]))
  }

  function Emit(e: Engine, event: SyncEvent): Engine {
    e.(events := e.events + [event])
  }

  /** The token provider's next answer, when it has one, is a token. */
  ghost predicate NextTokenIssued(e: Engine) {
    |e.remote.tokens| > 0 && e.remote.tokens[0].TokenIssued?
  }

  /**
   * A token is issued and the service acknowledges the association that
   * follows, once `skip` replies have gone to earlier calls.
   */
  ghost predicate Reassociates(e: Engine, env: Env, skip: nat) {
    env.hasTokenProvider && NextTokenIssued(e) && |e.remote.replies| > skip && e.remote.replies[skip].Ack?
  }

  /** The error a user id job reports when the token provider gives no token. */
  function TokenError(t: TokenReply): UserIdError
    requires !t.TokenIssued?
  {
    if t.FetchThrew? then FetchTokenThrew else TokenFetchFailed
  }

  /** The calls of `calls` from position `n` on all go to the token provider or set the user id. */
  ghost predicate UserIdCallsFrom(calls: seq<Call>, n: nat) {
    forall i :: n <= i < |calls| ==> calls[i].FetchTokenCall? || calls[i].SetUserIdCall?
  }

  /**
   * The service side of `processSetUserIdJob`: associate an issued token with
   * the device; on success store the user id, on failure report the error.
   */
  function AssociateUserId(e: Engine, deviceId: string, userId: string, jwt: string): (e': Engine)
    requires !e.stalled && Valid(e.store)
    ensures Valid(e'.store) && SameOutside(e.store, e'.store, {UserIdKey})
    ensures e'.queue == e.queue && e'.device == e.device
    ensures e'.remote.registrations == e.remote.registrations && e'.remote.tokens == e.remote.tokens
    ensures e'.calls == e.calls + [SetUserIdCall(deviceId, jwt)]
    ensures e'.stalled <==> |e.remote.replies| == 0
    ensures e'.stalled ==> e'.store == e.store && e'.events == e.events
    ensures !e'.stalled && e.remote.replies[0].Ack? ==>
              e'.store == SetUserId(e.store, userId).store && e'.events == e.events + [UserIdSetEvent(userId, None)]
    ensures !e'.stalled && e.remote.replies[0].Failed? ==>
              e'.store == e.store &&
              e'.events == e.events + [UserIdSetEvent(userId, Some(ServerSyncFailed(e.remote.replies[0].error)))]
  {
    var e1 := Request(e, SetUserIdCall(deviceId, jwt)).0;
    if e1.stalled then e1
    else match e.remote.replies[0]
      case Ack => Emit(e1.(store := SetUserId(e1.store, userId).store), UserIdSetEvent(userId, None))
      case Failed(error) => Emit(e1, UserIdSetEvent(userId, Some(ServerSyncFailed(error))))
  }

  /**
   * `processSetUserIdJob`: without a token provider, an error event and no
   * call; otherwise fetch a token and associate it with the device. The user
   * id is stored only when the service acknowledges; every failure leaves the
   * store as it was and reports its cause. Every outcome ends in one
   * UserIdSetEvent for `userId`.
   */
  function ProcessSetUserIdJob(e: Engine, env: Env, userId: string): (e': Engine)
    requires Ready(e)
    ensures Valid(e'.store) && SameOutside(e.store, e'.store, {UserIdKey})
    ensures e'.queue == e.queue && e'.device == e.device
    ensures e'.remote.registrations == e.remote.registrations
    ensures Extends(e, e') && OnlyUserIdEvents(e'.events[|e.events|..])
    ensures UserIdCallsFrom(e'.calls, |e.calls|)
    ensures !env.hasTokenProvider ==>
              e' == e.(events := e.events + [UserIdSetEvent(userId, Some(TokenProviderMissing))])
    ensures env.hasTokenProvider ==> |e'.calls| > |e.calls| && e'.calls[|e.calls|] == FetchTokenCall(userId)
    ensures e'.stalled <==>
              env.hasTokenProvider && (|e.remote.tokens| == 0 || (NextTokenIssued(e) && |e.remote.replies| == 0))
    ensures e'.stalled ==> e'.store == e.store && e'.events == e.events
    ensures env.hasTokenProvider && |e.remote.tokens| > 0 && !NextTokenIssued(e) ==>
              && e'.calls == e.calls + [FetchTokenCall(userId)]
              && e'.store == e.store
              && e'.events == e.events + [UserIdSetEvent(userId, Some(TokenError(e.remote.tokens[0])))]
    ensures env.hasTokenProvider && NextTokenIssued(e) ==>
              e'.calls == e.calls + [FetchTokenCall(userId), SetUserIdCall(e.device.id.value, e.remote.tokens[0].jwt)]
    ensures env.hasTokenProvider && NextTokenIssued(e) && |e.remote.replies| > 0 && e.remote.replies[0].Ack? ==>
              e'.store == SetUserId(e.store, userId).store && e'.events == e.events + [UserIdSetEvent(userId, None)]
    ensures env.hasTokenProvider && NextTokenIssued(e) && |e.remote.replies| > 0 && e.remote.replies[0].Failed? ==>
              && e'.store == e.store
              && e'.events == e.events + [UserIdSetEvent(userId, Some(ServerSyncFailed(e.remote.replies[0].error)))]
    ensures !e'.stalled ==> |e'.events| == |e.events| + 1 && e'.events[|e.events|].userId == userId
    ensures !e'.stalled && e'.events[|e.events|].error.None? ==> GetUserId(e'.store).Some?
  {
    if !env.hasTokenProvider then
      Emit(e, UserIdSetEvent(userId, Some(TokenProviderMissing)))
    else
      var e1 := FetchToken(e, userId).0;
      if e1.stalled then e1
      else if !e.remote.tokens[0].TokenIssued? then
        Emit(e1, UserIdSetEvent(userId, Some(TokenError(e.remote.tokens[0]))))
      else
        AssociateUserId(e1, e.device.id.value, userId, e.remote.tokens[0].jwt)
  }

  /**
   * The user-id part of `recreateDevice`: re-associate the stored user id
   * with the new device. The user id survives only when a token is issued and
   * the service acknowledges it; a missing token provider, a token failure or
   * a service failure forgets it locally. No event is emitted.
   */
  function RestoreUserId(e: Engine, env: Env): (e': Engine)
    requires Ready(e)
    ensures Valid(e'.store) && SameOutside(e.store, e'.store, {UserIdKey})
    ensures e'.queue == e.queue && e'.device == e.device && e'.events == e.events
    ensures e'.remote.registrations == e.remote.registrations
    ensures Extends(e, e') && UserIdCallsFrom(e'.calls, |e.calls|)
    ensures GetUserId(e.store).None? ==> e' == e
    ensures !env.hasTokenProvider ==> e'.calls == e.calls && GetUserId(e'.store).None?
    ensures env.hasTokenProvider && GetUserId(e.store).Some? ==>
              |e'.calls| > |e.calls| && e'.calls[|e.calls|] == FetchTokenCall(GetUserId(e.store).value)
    ensures env.hasTokenProvider && GetUserId(e.store).Some? && NextTokenIssued(e) ==>
              |e'.calls| == |e.calls| + 2 && e'.calls[|e.calls| + 1] == SetUserIdCall(e.device.id.value, e.remote.tokens[0].jwt)
    ensures e'.stalled ==> e'.store == e.store
    ensures !e'.stalled && Reassociates(e, env, 0) ==> GetUserId(e'.store) == GetUserId(e.store)
    ensures !e'.stalled && !Reassociates(e, env, 0) ==> GetUserId(e'.store).None?
  {
    match GetUserId(e.store)
    case None => e
    case Some(userId) =>
      if !env.hasTokenProvider then
        e.(store := RemoveUserId(e.store))
      else
        var e1 := FetchToken(e, userId).0;
        if e1.stalled then e1
        else if !e.remote.tokens[0].TokenIssued? then e1.(store := RemoveUserId(e1.store))
        else
          var e2 := Request(e1, SetUserIdCall(e.device.id.value, e.remote.tokens[0].jwt)).0;
          if e2.stalled then e2
          else if e.remote.replies[0].Ack? then e2.(store := SetUserId(e2.store, userId).store)
          else e2.(store := RemoveUserId(e2.store))
  }

  /**
   * The part of `recreateDevice` after a successful registration: persist the
   * new device id with the token, push the local interests when there are
   * any, and re-associate the user id.
   */
  function AfterReRegistration(e: Engine, env: Env, device: Device, token: string): (e': Engine)
    requires !e.stalled && Valid(e.store)
    ensures Valid(e'.store) && Subscriptions(e'.store) == Subscriptions(e.store)
    ensures e'.queue == e.queue && e'.events == e.events
    ensures e'.device == e.device.(id := Some(device.id), apnsToken := Some(token))
    ensures e'.remote.registrations == e.remote.registrations
    ensures Extends(e, e')
    ensures Subscriptions(e.store) != {} ==>
              |e'.calls| > |e.calls| && e'.calls[|e.calls|] == SetSubscriptionsCall(device.id, Subscriptions(e.store))
    ensures UserIdCallsFrom(e'.calls, |e.calls| + (if Subscriptions(e.store) != {} then 1 else 0))
    ensures GetUserId(e'.store) == GetUserId(e.store) || GetUserId(e'.store).None?
  {
    var e1 := e.(device := e.device.(id := Some(device.id), apnsToken := Some(token)));
    var local := Subscriptions(e1.store);
    var e2 := if local != {} then Request(e1, SetSubscriptionsCall(device.id, local)).0 else e1;
    if e2.stalled then e2
    else
      var e3 := RestoreUserId(e2, env);
      SubscriptionsIgnoreOtherKeys(e2.store, e3.store, {UserIdKey});
      e3
  }

  /**
   * After the push, the stored user id goes through the re-association: the
   * next call fetches a token for it, and it survives exactly when a token is
   * issued and the service acknowledges the association.
   */
  lemma AfterReRegistrationRestoresUserId(e: Engine, env: Env, device: Device, token: string)
    requires !e.stalled && Valid(e.store)
    ensures var e' := AfterReRegistration(e, env, device, token);
            var pushed := if Subscriptions(e.store) != {} then 1 else 0;
            !e'.stalled && env.hasTokenProvider && GetUserId(e.store).Some? ==>
              |e'.calls| > |e.calls| + pushed && e'.calls[|e.calls| + pushed] == FetchTokenCall(GetUserId(e.store).value)
    ensures var e' := AfterReRegistration(e, env, device, token);
            var pushed := if Subscriptions(e.store) != {} then 1 else 0;
            !e'.stalled && Reassociates(e, env, pushed) ==> GetUserId(e'.store) == GetUserId(e.store)
    ensures var e' := AfterReRegistration(e, env, device, token);
            var pushed := if Subscriptions(e.store) != {} then 1 else 0;
            !e'.stalled && !Reassociates(e, env, pushed) ==> GetUserId(e'.store).None?
  {
    var e1 := e.(device := e.device.(id := Some(device.id), apnsToken := Some(token)));
    var local := Subscriptions(e1.store);
    var e2 := if local != {} then Request(e1, SetSubscriptionsCall(device.id, local)).0 else e1;
    if !e2.stalled {
      var pushed := if local != {} then 1 else 0;
      assert |e2.calls| == |e.calls| + pushed && e2.store == e.store && e2.remote.tokens == e.remote.tokens;
      assert e2.remote.replies == e.remote.replies[pushed..];
      assert Reassociates(e2, env, 0) <==> Reassociates(e, env, pushed);
      assert AfterReRegistration(e, env, device, token) == RestoreUserId(e2, env);
    }
  }

  /**
   * `recreateDevice`: register again with the stored APNs token, then finish
   * as above. The result says whether the device was registered again.
   */
  function Recreate(e: Engine, env: Env): (r: (Engine, bool))
    requires Ready(e)
    ensures Valid(r.0.store) && Subscriptions(r.0.store) == Subscriptions(e.store)
    ensures r.0.queue == e.queue && r.0.events == e.events
    ensures r.0.device.id.Some? && r.0.device.apnsToken == e.device.apnsToken
    ensures r.0.device.instanceId == e.device.instanceId && r.0.device.metadata == e.device.metadata
    ensures Extends(e, r.0)
    ensures |r.0.calls| > |e.calls|
    ensures r.0.calls[|e.calls|] == RegisterCall(env.instanceId, e.device.apnsToken.value, env.currentMetadata)
    ensures |r.0.remote.registrations| <= |e.remote.registrations|
    ensures r.1 ==> !r.0.stalled && |r.0.remote.registrations| < |e.remote.registrations|
    ensures r.1 ==> |e.remote.registrations| > 0 && e.remote.registrations[0].Registered? &&
                    r.0.device.id == Some(e.remote.registrations[0].device.id)
    ensures |e.remote.registrations| > 0 && e.remote.registrations[0].RegisterFailed? ==>
              !r.1 && !r.0.stalled && r.0.calls == e.calls + [r.0.calls[|e.calls|]] &&
              r.0.store == e.store && r.0.device == e.device
    ensures |e.remote.registrations| > 0 && e.remote.registrations[0].Registered? && !r.0.stalled ==> r.1
    ensures GetUserId(r.0.store) == GetUserId(e.store) || GetUserId(r.0.store).None?
  {
    var token := e.device.apnsToken.value;
    var call := RegisterCall(env.instanceId, token, env.currentMetadata);
    if |e.remote.registrations| == 0 then
      (e.(calls := e.calls + [call], stalled := true), false)
    else
      var e1 := e.(calls := e.calls + [call], remote := e.remote.(registrations := e.remote.registrations[1..]));
      match e.remote.registrations[0]
      case RegisterFailed(_) => (e1, false)
      case Registered(device) =>
        var e2 := AfterReRegistration(e1, env, device, token);
        FirstCallKept(e, e1, e2);
        (e2, !e2.stalled)
  }

  /**
   * After a successful registration `recreateDevice` pushes the local
   * interests, when there are any, as its next call, for the new device id.
   */
  lemma RecreatePushesInterests(e: Engine, env: Env)
    requires Ready(e) && |e.remote.registrations| > 0 && e.remote.registrations[0].Registered?
    ensures Recreate(e, env).0.device.id == Some(e.remote.registrations[0].device.id)
    ensures Subscriptions(e.store) != {} ==>
              |Recreate(e, env).0.calls| > |e.calls| + 1 &&
              Recreate(e, env).0.calls[|e.calls| + 1] ==
                SetSubscriptionsCall(e.remote.registrations[0].device.id, Subscriptions(e.store))
  {
    var e1 := e.(calls := e.calls + [RegisterCall(env.instanceId, e.device.apnsToken.value, env.currentMetadata)],
                 remote := e.remote.(registrations := e.remote.registrations[1..]));
    assert Recreate(e, env).0 == AfterReRegistration(e1, env, e.remote.registrations[0].device, e.device.apnsToken.value);
  }

  /**
   * After a successful registration and the push, `recreateDevice` makes only
   * the token fetch and SetUserId calls of the user-id re-association.
   */
  lemma RecreateThenRestoresUserId(e: Engine, env: Env)
    requires Ready(e) && |e.remote.registrations| > 0 && e.remote.registrations[0].Registered?
    ensures UserIdCallsFrom(Recreate(e, env).0.calls, |e.calls| + 1 + (if Subscriptions(e.store) != {} then 1 else 0))
  {
    var e1 := e.(calls := e.calls + [RegisterCall(env.instanceId, e.device.apnsToken.value, env.currentMetadata)],
                 remote := e.remote.(registrations := e.remote.registrations[1..]));
    assert Recreate(e, env).0 == AfterReRegistration(e1, env, e.remote.registrations[0].device, e.device.apnsToken.value);
  }

  /**
   * After a successful registration and the push, `recreateDevice` fetches a
   * token for the stored user id, and the user id survives exactly when a
   * token is issued and the service acknowledges its association with the
   * new device; otherwise it is forgotten.
   */
  lemma RecreateReassociatesUserId(e: Engine, env: Env)
    requires Ready(e) && |e.remote.registrations| > 0 && e.remote.registrations[0].Registered?
    ensures var e' := Recreate(e, env).0;
            var pushed := if Subscriptions(e.store) != {} then 1 else 0;
            !e'.stalled && env.hasTokenProvider && GetUserId(e.store).Some? ==>
              |e'.calls| > |e.calls| + 1 + pushed &&
              e'.calls[|e.calls| + 1 + pushed] == FetchTokenCall(GetUserId(e.store).value)
    ensures var e' := Recreate(e, env).0;
            var pushed := if Subscriptions(e.store) != {} then 1 else 0;
            !e'.stalled && Reassociates(e, env, pushed) ==> GetUserId(e'.store) == GetUserId(e.store)
    ensures var e' := Recreate(e, env).0;
            var pushed := if Subscriptions(e.store) != {} then 1 else 0;
            !e'.stalled && !Reassociates(e, env, pushed) ==> GetUserId(e'.store).None?
  {
    var device := e.remote.registrations[0].device;
    var token := e.device.apnsToken.value;
    var e1 := e.(calls := e.calls + [RegisterCall(env.instanceId, token, env.currentMetadata)],
                 remote := e.remote.(registrations := e.remote.registrations[1..]));
    assert Recreate(e, env).0 == AfterReRegistration(e1, env, device, token);
    AfterReRegistrationRestoresUserId(e1, env, device, token);
    var pushed := if Subscriptions(e.store) != {} then 1 else 0;
    assert Reassociates(e1, env, pushed) <==> Reassociates(e, env, pushed);
  }

  /** Whether `processJob` sends a call of the job's own to the service. */
  predicate MakesCall(job: ServerSyncJob) {
    match job
    case SubscribeJob(_, changed) => changed
    case UnsubscribeJob(_, changed) => changed
    case SetSubscriptions(_, changed) => changed
    case ReportEventJob(_) => true
    case _ => false
  }

  /** The one remote call a job makes itself, if any; local no-ops make none. */
  function JobCall(job: ServerSyncJob, deviceId: string): (r: Option<Call>)
    ensures IsLocalNoOp(job) ==> r.None?
    ensures r.Some? <==> MakesCall(job)
  {
    match job
    case SubscribeJob(interest, true) => Some(SubscribeCall(deviceId, interest))
    case UnsubscribeJob(interest, true) => Some(UnsubscribeCall(deviceId, interest))
    case SetSubscriptions(interests, true) => Some(SetSubscriptionsCall(deviceId, set i | i in interests))
    case ReportEventJob(eventType) => Some(TrackCall(eventType.instanceId, deviceId, eventType))
    case _ => None
  }

  /** The metadata half of `processApplicationStartJob`: sync `metadata` when it differs from the saved one. */
  function SyncMetadataStep(e: Engine, metadata: Metadata): (e': Engine)
    requires Ready(e)
    ensures e'.store == e.store && e'.queue == e.queue && e'.events == e.events
    ensures e'.device == e.device.(metadata := e'.device.metadata)
    ensures e'.remote.registrations == e.remote.registrations && e'.remote.tokens == e.remote.tokens
    ensures e.device.metadata == Some(metadata) ==> e' == e
    ensures e.device.metadata != Some(metadata) ==>
              && e'.calls == e.calls + [SyncMetadataCall(e.device.id.value, metadata)]
              && (e'.stalled <==> |e.remote.replies| == 0)
              && (!e'.stalled ==> e'.remote.replies == e.remote.replies[1..])
              && (!e'.stalled ==> (e'.device.metadata == Some(metadata) <==> e.remote.replies[0].Ack?))
    ensures e'.stalled ==> e'.device == e.device
    ensures e'.device.metadata == e.device.metadata || e'.device.metadata == Some(metadata)
  {
    if e.device.metadata == Some(metadata) then e
    else
      var e1 := Request(e, SyncMetadataCall(e.device.id.value, metadata)).0;
      if !e1.stalled && e.remote.replies[0].Ack? then e1.(device := e1.device.(metadata := Some(metadata))) else e1
  }

  /** The interests half of `processApplicationStartJob`: push the local set when `hash` is not the confirmed one. */
  function SyncHashStep(e: Engine, deviceId: string, hash: string): (e': Engine)
    requires !e.stalled && Valid(e.store)
    ensures Valid(e'.store) && SameOutside(e.store, e'.store, {HashKey})
    ensures e'.queue == e.queue && e'.events == e.events && e'.device == e.device
    ensures e'.remote.registrations == e.remote.registrations && e'.remote.tokens == e.remote.tokens
    ensures hash == GetServerConfirmedInterestsHash(e.store) ==> e' == e
    ensures hash != GetServerConfirmedInterestsHash(e.store) ==>
              && e'.calls == e.calls + [SetSubscriptionsCall(deviceId, Subscriptions(e.store))]
              && (e'.stalled <==> |e.remote.replies| == 0)
              && (!e'.stalled ==> (GetServerConfirmedInterestsHash(e'.store) == hash <==> e.remote.replies[0].Ack?))
    ensures e'.stalled ==> e'.store == e.store
    ensures var h := GetServerConfirmedInterestsHash(e'.store); h == GetServerConfirmedInterestsHash(e.store) || h == hash
  {
    if hash == GetServerConfirmedInterestsHash(e.store) then e
    else
      var e1 := Request(e, SetSubscriptionsCall(deviceId, Subscriptions(e.store))).0;
      if !e1.stalled && e.remote.replies[0].Ack? then e1.(store := PersistServerConfirmedInterestsHash(e1.store, hash))
      else e1
  }

  /**
   * `processApplicationStartJob`: best-effort sync of the metadata when it
   * differs from the saved one, then of the local interests when their hash
   * differs from the server-confirmed hash. Each sync is one call, and what
   * it syncs is recorded exactly when the service acknowledges that call.
   */
  function ProcessApplicationStartJob(e: Engine, env: Env, metadata: Metadata): (e': Engine)
    requires Ready(e)
    ensures Valid(e'.store) && SameOutside(e.store, e'.store, {HashKey})
    ensures e'.queue == e.queue && e'.events == e.events
    ensures e'.device.id == e.device.id && e'.device.apnsToken == e.device.apnsToken
    ensures e'.device.instanceId == e.device.instanceId
    ensures e'.remote.registrations == e.remote.registrations
    ensures Extends(e, e')
    ensures var metaCalls := if e.device.metadata != Some(metadata) then [SyncMetadataCall(e.device.id.value, metadata)] else [];
            var hash := env.interestsHash(Subscriptions(e.store));
            var hashCalls :=
              if hash != GetServerConfirmedInterestsHash(e.store)
              then [SetSubscriptionsCall(e.device.id.value, Subscriptions(e.store))] else [];
            && (e'.stalled <==> |e.remote.replies| < |metaCalls| + |hashCalls|)
            && (!e'.stalled ==> e'.calls == e.calls + metaCalls + hashCalls)
            && (!e'.stalled && metaCalls != [] ==> (e'.device.metadata == Some(metadata) <==> e.remote.replies[0].Ack?))
            && (!e'.stalled && hashCalls != [] ==>
                  (GetServerConfirmedInterestsHash(e'.store) == hash <==> e.remote.replies[|metaCalls|].Ack?))
    ensures e'.device.metadata == e.device.metadata || e'.device.metadata == Some(metadata)
    ensures var h := GetServerConfirmedInterestsHash(e'.store);
            h == GetServerConfirmedInterestsHash(e.store) || h == env.interestsHash(Subscriptions(e.store))
    ensures (e.device.metadata == Some(metadata) &&
             env.interestsHash(Subscriptions(e.store)) == GetServerConfirmedInterestsHash(e.store)) ==> e' == e
  {
    var e1 := SyncMetadataStep(e, metadata);
    if e1.stalled then e1
    else SyncHashStep(e1, e.device.id.value, env.interestsHash(Subscriptions(e.store)))
  }

  /** The jobs of `processJob` that make no call of their own. */
  function ProcessLocalJob(e: Engine, env: Env, job: ServerSyncJob): (e': Engine)
    requires Ready(e) && !MakesCall(job)
    ensures Valid(e'.store) && Subscriptions(e'.store) == Subscriptions(e.store)
    ensures e'.queue == e.queue && e'.remote.registrations == e.remote.registrations
    ensures e'.device.id == e.device.id && e'.device.apnsToken == e.device.apnsToken
    ensures e'.device.instanceId == e.device.instanceId
    ensures Extends(e, e') && OnlyUserIdEvents(e'.events[|e.events|..])
    ensures !job.SetUserIdJob? && !job.ApplicationStartJob? ==> e' == e
  {
    match job
    case ApplicationStartJob(metadata) =>
      var e' := ProcessApplicationStartJob(e, env, metadata);
      SubscriptionsIgnoreOtherKeys(e.store, e'.store, {HashKey});
      e'
    case SetUserIdJob(userId) =>
      var e' := ProcessSetUserIdJob(e, env, userId);
      SubscriptionsIgnoreOtherKeys(e.store, e'.store, {UserIdKey});
      e'
    case _ => e
  }

  /**
   * `processJob`. Local no-ops succeed without a call; jobs with a call of
   * their own go through `ProcessRemoteJob`.
   */
  function ProcessJob(e: Engine, env: Env, job: ServerSyncJob): (e': Engine)
    requires Ready(e)
    ensures Valid(e'.store) && Subscriptions(e'.store) == Subscriptions(e.store)
    ensures e'.queue == e.queue
    ensures e'.device.id.Some? && e'.device.apnsToken == e.device.apnsToken
    ensures e'.device.instanceId == e.device.instanceId
    ensures |e'.remote.registrations| <= |e.remote.registrations|
    ensures Extends(e, e') && OnlyUserIdEvents(e'.events[|e.events|..])
    ensures !MakesCall(job) ==> e'.device.id == e.device.id
    ensures !MakesCall(job) && !job.SetUserIdJob? && !job.ApplicationStartJob? ==> e' == e
    ensures MakesCall(job) ==> e'.events == e.events
    ensures MakesCall(job) ==>
              |e'.calls| > |e.calls| && e'.calls[|e.calls|] == JobCall(job, e.device.id.value).value
    decreases |e.remote.registrations|, 1
  {
    if !MakesCall(job) then ProcessLocalJob(e, env, job)
    else ProcessRemoteJob(e, env, job)
  }

  /**
   * `processJob` hands an ApplicationStartJob to the metadata and hash sync,
   * and a SetUserIdJob to the user-id association.
   */
  lemma ProcessJobDispatchesLocal(e: Engine, env: Env, job: ServerSyncJob)
    requires Ready(e)
    ensures job.ApplicationStartJob? ==> ProcessJob(e, env, job) == ProcessApplicationStartJob(e, env, job.metadata)
    ensures job.SetUserIdJob? ==> ProcessJob(e, env, job) == ProcessSetUserIdJob(e, env, job.userId)
  {
    if job.ApplicationStartJob? || job.SetUserIdJob? {
      assert !MakesCall(job);
      assert ProcessJob(e, env, job) == ProcessLocalJob(e, env, job);
    }
  }

  /**
   * The calling half of `processJob`. A call that fails with DeviceNotFound
   * re-registers the device and runs the job again only if that worked; any
   * other failure abandons the job.
   */
  function ProcessRemoteJob(e: Engine, env: Env, job: ServerSyncJob): (e': Engine)
    requires Ready(e) && MakesCall(job)
    ensures Valid(e'.store) && Subscriptions(e'.store) == Subscriptions(e.store)
    ensures e'.queue == e.queue
    ensures e'.device.id.Some? && e'.device.apnsToken == e.device.apnsToken
    ensures e'.device.instanceId == e.device.instanceId
    ensures |e'.remote.registrations| <= |e.remote.registrations|
    ensures Extends(e, e') && e'.events == e.events
    ensures |e'.calls| > |e.calls| && e'.calls[|e.calls|] == JobCall(job, e.device.id.value).value
    decreases |e.remote.registrations|, 0
  {
    var sent := Request(e, JobCall(job, e.device.id.value).value);
    var e1 := sent.0;
    if sent.1.None? || sent.1.value.Ack? || !sent.1.value.error.DeviceNotFound? then e1
    else
      var recreate := Recreate(e1, env);
      var e2 := recreate.0;
      if recreate.1 then
        var e3 := ProcessJob(e2, env, job);
        ExtendsTransitive(e1, e2, e3);
        FirstCallKept(e, e1, e3);
        e3
      else e2
  }

  lemma OnlyUserIdEventsChain(a: Engine, b: Engine, c: Engine)
    requires Extends(a, b) && Extends(b, c)
    requires OnlyUserIdEvents(b.events[|a.events|..]) && OnlyUserIdEvents(c.events[|b.events|..])
    ensures OnlyUserIdEvents(c.events[|a.events|..])
  {
    forall i | 0 <= i < |c.events| - |a.events| ensures c.events[|a.events|..][i].UserIdSetEvent? {
      if |a.events| + i < |b.events| {
        assert c.events[|a.events| + i] == c.events[..|b.events|][|a.events| + i];
        assert c.events[|a.events| + i] == b.events[|a.events|..][i];
      } else {
        assert c.events[|a.events| + i] == c.events[|b.events|..][|a.events| + i - |b.events|];
      }
    }
  }

  /**
   * A job whose call is answered in full: acknowledged, or failed with an
   * error other than DeviceNotFound. The call is made once and nothing else
   * happens: a failed job is abandoned, not retried.
   */
  lemma ProcessJobSettles(e: Engine, env: Env, job: ServerSyncJob)
    requires Ready(e) && MakesCall(job)
    requires |e.remote.replies| > 0 && (e.remote.replies[0].Ack? || e.remote.replies[0].error.RequestRejected?)
    ensures ProcessJob(e, env, job) ==
              e.(calls := e.calls + [JobCall(job, e.device.id.value).value],
                 remote := e.remote.(replies := e.remote.replies[1..]))
  {
    assert ProcessJob(e, env, job) == ProcessRemoteJob(e, env, job);
  }

  /**
   * A job whose call fails with DeviceNotFound: the device is registered
   * again with the stored token.
   */
  lemma ProcessJobReRegisters(e: Engine, env: Env, job: ServerSyncJob)
    requires Ready(e) && MakesCall(job)
    requires |e.remote.replies| > 0 && e.remote.replies[0] == Failed(DeviceNotFound)
    ensures var e' := ProcessJob(e, env, job);
            && |e'.calls| > |e.calls| + 1
            && e'.calls[|e.calls|] == JobCall(job, e.device.id.value).value
            && e'.calls[|e.calls| + 1] == RegisterCall(env.instanceId, e.device.apnsToken.value, env.currentMetadata)
  {
    var e1 := Request(e, JobCall(job, e.device.id.value).value).0;
    var r := Recreate(e1, env);
    assert ProcessJob(e, env, job) == ProcessRemoteJob(e, env, job);
    if r.1 {
      var e3 := ProcessJob(r.0, env, job);
      FirstCallKept(e1, r.0, e3);
      FirstCallKept(e, e1, e3);
    }
  }

  /**
   * When the registration after DeviceNotFound fails too, the job is
   * abandoned after those two calls and nothing else changes.
   */
  lemma ProcessJobGivesUp(e: Engine, env: Env, job: ServerSyncJob)
    requires Ready(e) && MakesCall(job)
    requires |e.remote.replies| > 0 && e.remote.replies[0] == Failed(DeviceNotFound)
    requires |e.remote.registrations| > 0 && e.remote.registrations[0].RegisterFailed?
    ensures var e' := ProcessJob(e, env, job);
            && e'.calls == e.calls + [JobCall(job, e.device.id.value).value,
                                      RegisterCall(env.instanceId, e.device.apnsToken.value, env.currentMetadata)]
            && e'.store == e.store && e'.device == e.device && !e'.stalled
  {
    var e1 := Request(e, JobCall(job, e.device.id.value).value).0;
    var r := Recreate(e1, env);
    assert !r.1;
    assert ProcessJob(e, env, job) == ProcessRemoteJob(e, env, job) == r.0;
  }

  /**
   * When the registration after DeviceNotFound succeeds, the job's call is
   * made again, after the registration, for the new device id.
   */
  lemma ProcessJobRetriesForNewDevice(e: Engine, env: Env, job: ServerSyncJob)
    requires Ready(e) && MakesCall(job)
    requires |e.remote.replies| > 0 && e.remote.replies[0] == Failed(DeviceNotFound)
    requires |e.remote.registrations| > 0 && e.remote.registrations[0].Registered?
    ensures var e' := ProcessJob(e, env, job);
            !e'.stalled ==>
              exists k :: |e.calls| + 1 < k < |e'.calls| &&
                e'.calls[k] == JobCall(job, e.remote.registrations[0].device.id).value
  {
    var e1 := Request(e, JobCall(job, e.device.id.value).value).0;
    var r := Recreate(e1, env);
    assert ProcessJob(e, env, job) == ProcessRemoteJob(e, env, job);
    if r.1 {
      var e3 := ProcessJob(r.0, env, job);
      assert e3.calls[|r.0.calls|] == JobCall(job, e.remote.registrations[0].device.id).value;
    }
  }

  /** Runs the jobs Start reconciliation kept back, in order, through `processJob`. */
  function ProcessAll(e: Engine, env: Env, jobs: seq<ServerSyncJob>): (e': Engine)
    requires Valid(e.store) && e.device.id.Some? && e.device.apnsToken.Some?
    ensures Valid(e'.store) && Subscriptions(e'.store) == Subscriptions(e.store)
    ensures e'.queue == e.queue
    ensures e'.device.apnsToken == e.device.apnsToken && e'.device.instanceId == e.device.instanceId
    ensures (forall i :: 0 <= i < |jobs| ==> !MakesCall(jobs[i])) ==> e'.device.id == e.device.id
    ensures Extends(e, e') && OnlyUserIdEvents(e'.events[|e.events|..])
    ensures e.stalled || jobs == [] ==> e' == e
    decreases |jobs|
  {
    if e.stalled || |jobs| == 0 then e
    else
      var e1 := ProcessJob(e, env, jobs[0]);
      var e2 := ProcessAll(e1, env, jobs[1..]);
      ExtendsTransitive(e, e1, e2);
      OnlyUserIdEventsChain(e, e1, e2);
      e2
  }

  /** The user ids of the SetUserId jobs of `jobs`, in order. */
  function UserIdJobs(jobs: seq<ServerSyncJob>): seq<string> {
    if jobs == [] then []
    else (if jobs[0].SetUserIdJob? then [jobs[0].userId] else []) + UserIdJobs(jobs[1..])
  }

  /** The user ids that the UserIdSetEvents of `events` report, in order. */
  function UserIdsOf(events: seq<SyncEvent>): seq<string> {
    if events == [] then []
    else (if events[0].UserIdSetEvent? then [events[0].userId] else []) + UserIdsOf(events[1..])
  }

  /** What the SetUserId jobs of `jobs` report, in order, when no token provider is installed. */
  function ProviderMissingEvents(jobs: seq<ServerSyncJob>): seq<SyncEvent> {
    if jobs == [] then []
    else
      (if jobs[0].SetUserIdJob? then [UserIdSetEvent(jobs[0].userId, Some(TokenProviderMissing))] else []) +
      ProviderMissingEvents(jobs[1..])
  }

  lemma {:induction false} UserIdsOfAppend(a: seq<SyncEvent>, b: seq<SyncEvent>)
    ensures UserIdsOf(a + b) == UserIdsOf(a) + UserIdsOf(b)
    decreases |a|
  {
    if a != [] {
      assert (a + b)[1..] == a[1..] + b;
      UserIdsOfAppend(a[1..], b);
    } else {
      assert a + b == b;
    }
  }

  /** One deferred job: a SetUserId job goes through `processSetUserIdJob`, a RefreshToken job changes nothing. */
  lemma DeferredJobStep(e: Engine, env: Env, job: ServerSyncJob)
    requires Ready(e) && IsDeferred(job)
    ensures var e' := ProcessJob(e, env, job);
            && UserIdCallsFrom(e'.calls, |e.calls|)
            && (!e'.stalled ==> UserIdsOf(e'.events[|e.events|..]) == UserIdJobs([job]))
            && (!env.hasTokenProvider ==>
                  && !e'.stalled && e'.calls == e.calls && e'.store == e.store
                  && e'.events == e.events + ProviderMissingEvents([job]))
  {
    var e' := ProcessJob(e, env, job);
    assert [job][1..] == [];
    if job.SetUserIdJob? {
      assert e' == ProcessSetUserIdJob(e, env, job.userId);
      if !e'.stalled {
        assert e'.events[|e.events|..] == [e'.events[|e.events|]];
        assert e'.events[|e.events|..][0].UserIdSetEvent?;
      }
    } else {
      assert e'.events[|e.events|..] == [];
    }
  }

  lemma UserIdCallsChain(a: Engine, b: Engine, c: Engine)
    requires Extends(a, b) && Extends(b, c)
    requires UserIdCallsFrom(b.calls, |a.calls|) && UserIdCallsFrom(c.calls, |b.calls|)
    ensures UserIdCallsFrom(c.calls, |a.calls|)
  {
    forall i | |a.calls| <= i < |c.calls| ensures c.calls[i].FetchTokenCall? || c.calls[i].SetUserIdCall? {
      if i < |b.calls| {
        assert c.calls[i] == b.calls[i];
      }
    }
  }

  lemma ConcatAssoc<T>(a: seq<T>, b: seq<T>, c: seq<T>)
    ensures (a + b) + c == a + (b + c)
  {
  }

  /** What `c` adds to `a` is what `b` adds to `a` followed by what `c` adds to `b`. */
  lemma SplitGrowth<T>(a: seq<T>, b: seq<T>, c: seq<T>)
    requires a <= b && b <= c
    ensures c[|a|..] == b[|a|..] + c[|b|..]
  {
    assert c[..|b|] == b;
  }

  /** The user ids reported while `a` grows to `c` are those reported up to `b`, then after it. */
  lemma UserIdsOfGrowth(a: seq<SyncEvent>, b: seq<SyncEvent>, c: seq<SyncEvent>)
    requires a <= b && b <= c
    ensures UserIdsOf(c[|a|..]) == UserIdsOf(b[|a|..]) + UserIdsOf(c[|b|..])
  {
    SplitGrowth(a, b, c);
    UserIdsOfAppend(b[|a|..], c[|b|..]);
  }

  lemma AllDeferredTail(jobs: seq<ServerSyncJob>)
    requires |jobs| > 0 && AllDeferred(jobs)
    ensures IsDeferred(jobs[0]) && AllDeferred(jobs[1..])
  {
    forall i | 0 <= i < |jobs[1..]| ensures IsDeferred(jobs[1..][i]) {
      assert jobs[1..][i] == jobs[i + 1];
    }
  }

  /** The deferred jobs make no call but to the token provider and to set the user id. */
  lemma {:induction false} DeferredJobsCallsOnly(e: Engine, env: Env, jobs: seq<ServerSyncJob>)
    requires Valid(e.store) && e.device.id.Some? && e.device.apnsToken.Some? && AllDeferred(jobs)
    ensures UserIdCallsFrom(ProcessAll(e, env, jobs).calls, |e.calls|)
    decreases |jobs|
  {
    if !e.stalled && jobs != [] {
      var e1 := ProcessJob(e, env, jobs[0]);
      AllDeferredTail(jobs);
      DeferredJobStep(e, env, jobs[0]);
      DeferredJobsCallsOnly(e1, env, jobs[1..]);
      UserIdCallsChain(e, e1, ProcessAll(e1, env, jobs[1..]));
    }
  }

  /**
   * Without a token provider the deferred jobs make no call and leave the
   * store alone, and each SetUserId job, in order, reports the missing
   * provider.
   */
  lemma {:induction false} DeferredJobsWithoutProvider(e: Engine, env: Env, jobs: seq<ServerSyncJob>)
    requires Ready(e) && AllDeferred(jobs) && !env.hasTokenProvider
    ensures var e' := ProcessAll(e, env, jobs);
            e'.calls == e.calls && e'.store == e.store && e'.events == e.events + ProviderMissingEvents(jobs)
    decreases |jobs|
  {
    if jobs != [] {
      var job := jobs[0];
      var e1 := ProcessJob(e, env, job);
      AllDeferredTail(jobs);
      DeferredJobStep(e, env, job);
      DeferredJobsWithoutProvider(e1, env, jobs[1..]);
      assert ProcessAll(e, env, jobs) == ProcessAll(e1, env, jobs[1..]);
      ProviderMissingEventsCons(jobs);
      ConcatAssoc(e.events, ProviderMissingEvents([job]), ProviderMissingEvents(jobs[1..]));
    }
  }

  /**
   * The deferred jobs are handled one after the other, in order: unless the
   * lane stalls, they report one UserIdSetEvent per SetUserId job, in the
   * jobs' order.
   */
  lemma {:induction false} DeferredJobsInOrder(e: Engine, env: Env, jobs: seq<ServerSyncJob>)
    requires Valid(e.store) && e.device.id.Some? && e.device.apnsToken.Some? && AllDeferred(jobs)
    ensures var e' := ProcessAll(e, env, jobs);
            !e'.stalled ==> UserIdsOf(e'.events[|e.events|..]) == UserIdJobs(jobs)
    decreases |jobs|
  {
    if e.stalled || jobs == [] {
      assert e.events[|e.events|..] == [];
    } else {
      var job := jobs[0];
      var e1 := ProcessJob(e, env, job);
      var e2 := ProcessAll(e1, env, jobs[1..]);
      AllDeferredTail(jobs);
      DeferredJobStep(e, env, job);
      DeferredJobsInOrder(e1, env, jobs[1..]);
      UserIdJobsCons(jobs);
      assert ProcessAll(e, env, jobs) == e2;
      if !e2.stalled {
        UserIdsOfGrowth(e.events, e1.events, e2.events);
      }
    }
  }

  lemma UserIdJobsCons(jobs: seq<ServerSyncJob>)
    requires |jobs| > 0
    ensures UserIdJobs(jobs) == UserIdJobs([jobs[0]]) + UserIdJobs(jobs[1..])
  {
    assert [jobs[0]][1..] == [];
  }

  lemma ProviderMissingEventsCons(jobs: seq<ServerSyncJob>)
    requires |jobs| > 0
    ensures ProviderMissingEvents(jobs) == ProviderMissingEvents([jobs[0]]) + ProviderMissingEvents(jobs[1..])
  {
    assert [jobs[0]][1..] == [];
  }

  /**
   * The critical section of `processStartJob`: fold the queue over the
   * server's initial interest set, store the result and announce it when it
   * differs from the stored set, and record the instance id, token and device id.
   */
  function StoreReconciledState(e: Engine, device: Device, instanceId: string, token: string): (e': Engine)
    requires Valid(e.store)
    ensures var rec := Reconcile(ToList(e.queue), device.initialInterestSet.GetOr({}));
            && Valid(e'.store)
            && Subscriptions(e'.store) == rec.interests
            && (Subscriptions(e.store) != rec.interests ==> e'.events == e.events + [InterestsChangedEvent(rec.interests)])
            && (Subscriptions(e.store) == rec.interests ==> e'.events == e.events && e'.store == e.store)
    ensures e'.device == e.device.(instanceId := Some(instanceId), apnsToken := Some(token), id := Some(device.id))
    ensures e'.queue == e.queue && e'.calls == e.calls && e'.remote == e.remote && e'.stalled == e.stalled
  {
    var rec := Reconcile(ToList(e.queue), device.initialInterestSet.GetOr({}));
    var e1 :=
      if Subscriptions(e.store) != rec.interests then
        Emit(e.(store := PersistInterests(e.store, multiset(rec.interests)).store), InterestsChangedEvent(rec.interests))
      else e;
    SetOfMultisetOfSet(rec.interests, multiset(rec.interests));
    e1.(device := e1.device.(instanceId := Some(instanceId), apnsToken := Some(token), id := Some(device.id)))
  }

  /**
   * The end of `processStartJob`: push the local interests to the server when
   * they differ from the initial set (the reply is ignored), then run the
   * deferred jobs in order. The push is the only interests call: everything
   * after it goes to the token provider or sets the user id.
   */
  function PushAndReplayDeferred(e: Engine, env: Env, deviceId: string, initial: set<string>, deferred: seq<ServerSyncJob>): (e': Engine)
    requires !e.stalled && Valid(e.store) && e.device.id == Some(deviceId) && e.device.apnsToken.Some?
    requires AllDeferred(deferred)
    ensures Valid(e'.store) && Subscriptions(e'.store) == Subscriptions(e.store)
    ensures e'.queue == e.queue && e'.device.id == e.device.id
    ensures e'.device.apnsToken == e.device.apnsToken && e'.device.instanceId == e.device.instanceId
    ensures Extends(e, e') && OnlyUserIdEvents(e'.events[|e.events|..])
    ensures Subscriptions(e.store) != initial ==>
              |e'.calls| > |e.calls| && e'.calls[|e.calls|] == SetSubscriptionsCall(deviceId, Subscriptions(e.store))
    ensures UserIdCallsFrom(e'.calls, |e.calls| + (if Subscriptions(e.store) != initial then 1 else 0))
    ensures !e'.stalled ==> UserIdsOf(e'.events[|e.events|..]) == UserIdJobs(deferred)
    ensures !env.hasTokenProvider && !e'.stalled ==>
              e'.store == e.store && e'.events == e.events + ProviderMissingEvents(deferred)
    ensures Subscriptions(e.store) == initial && deferred == [] ==> e'.calls == e.calls
  {
    var local := Subscriptions(e.store);
    var e1 := if local != initial then Request(e, SetSubscriptionsCall(deviceId, local)).0 else e;
    forall i | 0 <= i < |deferred| ensures !MakesCall(deferred[i]) {
      assert IsDeferred(deferred[i]);
    }
    var e2 := ProcessAll(e1, env, deferred);
    FirstCallKept(e, e1, e2);
    OnlyUserIdEventsChain(e, e1, e2);
    DeferredJobsCallsOnly(e1, env, deferred);
    DeferredJobsInOrder(e1, env, deferred);
    if !env.hasTokenProvider && !e1.stalled then
      DeferredJobsWithoutProvider(e1, env, deferred);
      e2
    else e2
  }

  /**
   * `processStartJob` once the device is registered: the critical section,
   * then the push and the deferred jobs.
   */
  function ProcessRegisteredStart(e: Engine, env: Env, device: Device, instanceId: string, token: string): (e': Engine)
    requires !e.stalled && Valid(e.store)
    ensures Valid(e'.store)
    ensures Subscriptions(e'.store) == Reconcile(ToList(e.queue), device.initialInterestSet.GetOr({})).interests
    ensures e'.queue == e.queue
    ensures e'.device.id == Some(device.id) && e'.device.apnsToken == Some(token)
    ensures e'.device.instanceId == Some(instanceId)
    ensures Extends(e, e')
  {
    var initial := device.initialInterestSet.GetOr({});
    var rec := Reconcile(ToList(e.queue), initial);
    var e1 := StoreReconciledState(e, device, instanceId, token);
    DeferredJobsOnly(ToList(e.queue), initial);
    var e2 := PushAndReplayDeferred(e1, env, device.id, initial, rec.outstanding);
    ExtendsTransitive(e, e1, e2);
    e2
  }

  lemma DeferredJobsOnly(jobs: seq<ServerSyncJob>, initial: set<string>)
    ensures AllDeferred(Reconcile(jobs, initial).outstanding)
  {
    var rec := Reconcile(jobs, initial);
    ReconcileOutstanding(jobs, initial);
    DeferredMembers(jobs[LastStop(jobs) + 1..]);
    forall i | 0 <= i < |rec.outstanding| ensures IsDeferred(rec.outstanding[i]) {
      assert rec.outstanding[i] in rec.outstanding;
    }
  }

  /**
   * Start announces new interests, as the first event it emits, exactly when
   * the reconciled set differs from the stored one.
   */
  lemma RegisteredStartAnnouncesChange(e: Engine, env: Env, device: Device, instanceId: string, token: string)
    requires !e.stalled && Valid(e.store)
    ensures var rec := Reconcile(ToList(e.queue), device.initialInterestSet.GetOr({}));
            var e' := ProcessRegisteredStart(e, env, device, instanceId, token);
            (Subscriptions(e.store) != rec.interests) <==>
              (|e'.events| > |e.events| && e'.events[|e.events|] == InterestsChangedEvent(rec.interests))
  {
    var initial := device.initialInterestSet.GetOr({});
    var rec := Reconcile(ToList(e.queue), initial);
    var e1 := StoreReconciledState(e, device, instanceId, token);
    DeferredJobsOnly(ToList(e.queue), initial);
    var e2 := PushAndReplayDeferred(e1, env, device.id, initial, rec.outstanding);
    if Subscriptions(e.store) != rec.interests {
      assert e2.events[|e.events|] == e2.events[..|e1.events|][|e.events|];
    } else {
      assert OnlyUserIdEvents(e2.events[|e.events|..]);
    }
  }

  /**
   * Start replays the jobs deferred behind the registration gate: unless the
   * lane stalls, the user ids it reports are those of the outstanding
   * SetUserId jobs, in queue order, and without a token provider its events
   * are the announcement of a changed set followed by one ProviderMissing
   * report per outstanding SetUserId job.
   */
  lemma RegisteredStartReplaysDeferred(e: Engine, env: Env, device: Device, instanceId: string, token: string)
    requires !e.stalled && Valid(e.store)
    ensures var rec := Reconcile(ToList(e.queue), device.initialInterestSet.GetOr({}));
            var e' := ProcessRegisteredStart(e, env, device, instanceId, token);
            !e'.stalled ==> UserIdsOf(e'.events[|e.events|..]) == UserIdJobs(rec.outstanding)
    ensures var rec := Reconcile(ToList(e.queue), device.initialInterestSet.GetOr({}));
            var e' := ProcessRegisteredStart(e, env, device, instanceId, token);
            var announced := if Subscriptions(e.store) != rec.interests then [InterestsChangedEvent(rec.interests)] else [];
            !env.hasTokenProvider && !e'.stalled ==> e'.events == e.events + announced + ProviderMissingEvents(rec.outstanding)
  {
    var initial := device.initialInterestSet.GetOr({});
    var rec := Reconcile(ToList(e.queue), initial);
    var e1 := StoreReconciledState(e, device, instanceId, token);
    DeferredJobsOnly(ToList(e.queue), initial);
    var e2 := PushAndReplayDeferred(e1, env, device.id, initial, rec.outstanding);
    assert ProcessRegisteredStart(e, env, device, instanceId, token) == e2;
    UserIdsOfSkipsAnnouncement(e.events, e1.events, e2.events, rec.interests, Subscriptions(e.store) != rec.interests);
  }

  lemma UserIdsOfSkipsAnnouncement(a: seq<SyncEvent>, b: seq<SyncEvent>, c: seq<SyncEvent>, interests: set<string>, announce: bool)
    requires b == a + (if announce then [InterestsChangedEvent(interests)] else []) && b <= c
    ensures UserIdsOf(c[|a|..]) == UserIdsOf(c[|b|..])
  {
    UserIdsOfGrowth(a, b, c);
    if announce {
      assert b[|a|..] == [InterestsChangedEvent(interests)];
      assert b[|a|..][1..] == [];
    } else {
      assert b[|a|..] == [];
    }
  }

  /**
   * Start pushes the reconciled set to the server, as its first call after
   * registering, exactly when it differs from the server's initial set: when
   * it does not, every further call goes to the token provider or sets the
   * user id, and with nothing deferred there is no further call.
   */
  lemma RegisteredStartPushesDifference(e: Engine, env: Env, device: Device, instanceId: string, token: string)
    requires !e.stalled && Valid(e.store)
    ensures var initial := device.initialInterestSet.GetOr({});
            var rec := Reconcile(ToList(e.queue), initial);
            var e' := ProcessRegisteredStart(e, env, device, instanceId, token);
            && (rec.interests != initial ==>
                  |e'.calls| > |e.calls| && e'.calls[|e.calls|] == SetSubscriptionsCall(device.id, rec.interests))
            && (rec.interests == initial ==> UserIdCallsFrom(e'.calls, |e.calls|))
            && (rec.interests == initial && rec.outstanding == [] ==> e'.calls == e.calls)
  {
    var initial := device.initialInterestSet.GetOr({});
    var rec := Reconcile(ToList(e.queue), initial);
    DeferredJobsOnly(ToList(e.queue), initial);
    var e1 := StoreReconciledState(e, device, instanceId, token);
    var e2 := PushAndReplayDeferred(e1, env, device.id, initial, rec.outstanding);
  }

  /**
   * `processStartJob`: register the device; an unrecoverable registration
   * error stops here and leaves the store and the device facts alone.
   */
  function ProcessStartJob(e: Engine, env: Env, instanceId: string, token: string): (e': Engine)
    requires Wf(e) && !e.stalled
    ensures Wf(e') && e'.queue == e.queue
    ensures Extends(e, e')
    ensures |e'.calls| > |e.calls| && e'.calls[|e.calls|] == RegisterCall(instanceId, token, env.currentMetadata)
    ensures |e.remote.registrations| == 0 ==> e'.stalled
    ensures |e.remote.registrations| > 0 && e.remote.registrations[0].RegisterFailed? ==>
              !e'.stalled && e'.store == e.store && e'.device == e.device && e'.events == e.events &&
              e'.calls == e.calls + [RegisterCall(instanceId, token, env.currentMetadata)]
    ensures |e.remote.registrations| > 0 && e.remote.registrations[0].Registered? ==>
              var device := e.remote.registrations[0].device;
              && Subscriptions(e'.store) == Reconcile(ToList(e.queue), device.initialInterestSet.GetOr({})).interests
              && e'.device.id == Some(device.id) && e'.device.apnsToken == Some(token)
              && e'.device.instanceId == Some(instanceId)
  {
    var call := RegisterCall(instanceId, token, env.currentMetadata);
    if |e.remote.registrations| == 0 then
      e.(calls := e.calls + [call], stalled := true)
    else
      var e1 := e.(calls := e.calls + [call], remote := e.remote.(registrations := e.remote.registrations[1..]));
      match e.remote.registrations[0]
      case RegisterFailed(_) => e1
      case Registered(device) =>
        var e2 := ProcessRegisteredStart(e1, env, device, instanceId, token);
        FirstCallKept(e, e1, e2);
        e2
  }

  /**
   * When registration succeeds, `processStartJob` goes on to replay the
   * outstanding SetUserId jobs: the user ids it reports are theirs, in queue
   * order, unless the lane stalls.
   */
  lemma StartJobReplaysDeferred(e: Engine, env: Env, instanceId: string, token: string)
    requires Wf(e) && !e.stalled && |e.remote.registrations| > 0 && e.remote.registrations[0].Registered?
    ensures var device := e.remote.registrations[0].device;
            var rec := Reconcile(ToList(e.queue), device.initialInterestSet.GetOr({}));
            var e' := ProcessStartJob(e, env, instanceId, token);
            !e'.stalled ==> UserIdsOf(e'.events[|e.events|..]) == UserIdJobs(rec.outstanding)
  {
    var device := e.remote.registrations[0].device;
    var e1 := e.(calls := e.calls + [RegisterCall(instanceId, token, env.currentMetadata)],
                 remote := e.remote.(registrations := e.remote.registrations[1..]));
    assert ProcessStartJob(e, env, instanceId, token) == ProcessRegisteredStart(e1, env, device, instanceId, token);
    RegisteredStartReplaysDeferred(e1, env, device, instanceId, token);
  }

  /**
   * `processStopJob`: delete the device remotely, then forget the device id,
   * the APNs token and the metadata, reset the confirmed hash to "", remove
   * the user id and announce the stop. The instance id is kept.
   */
  function ProcessStopJob(e: Engine, env: Env): (e': Engine)
    requires Ready(e)
    ensures Wf(e') && e'.queue == e.queue
    ensures Subscriptions(e'.store) == Subscriptions(e.store)
    ensures e'.calls == e.calls + [DeleteDeviceCall(e.device.id.value)]
    ensures !e'.stalled ==>
              && e'.device == e.device.(id := None, apnsToken := None, metadata := None)
              && GetServerConfirmedInterestsHash(e'.store) == ""
              && GetUserId(e'.store) == None
              && SameOutside(e.store, e'.store, {HashKey, UserIdKey})
              && e'.events == e.events + [StopEvent]
    ensures e'.stalled ==> e'.store == e.store && e'.device == e.device && e'.events == e.events
  {
    var sent := Request(e, DeleteDeviceCall(e.device.id.value));
    var e1 := sent.0;
    if e1.stalled then e1
    else
      var store := RemoveUserId(PersistServerConfirmedInterestsHash(e1.store, ""));
      SubscriptionsIgnoreOtherKeys(e1.store, store, {HashKey, UserIdKey});
      Emit(e1.(device := e1.device.(id := None, apnsToken := None, metadata := None), store := store), StopEvent)
  }

  function PopFront(jobs: seq<ServerSyncJob>): seq<ServerSyncJob> {
    if |jobs| > 0 then jobs[1..] else []
  }

  /**
   * `after` is what is left of `before` once everything up to and including
   * its first StartJob is gone; with no StartJob, nothing is left.
   */
  ghost predicate DrainedThroughStart(before: seq<ServerSyncJob>, after: seq<ServerSyncJob>) {
    && (StartFree(before) ==> after == [])
    && (forall i :: 0 <= i < |before| && before[i].StartJob? && StartFree(before[..i]) ==> after == before[i + 1..])
  }

  /** The loop at the end of Start handling: pop jobs until a StartJob has been popped or the queue is empty. */
  function DrainThroughStart(q: JobStore, w: WriteOutcome): (r: JobStore)
    ensures DrainedThroughStart(q.jobs, r.jobs)
    ensures |q.jobs| > 0 && w.Written? ==> Synced(r)
    ensures |q.jobs| == 0 ==> r == q
    decreases |q.jobs|
  {
    if IsEmpty(q) then q
    else
      var head := First(q).value;
      var q' := RemoveFirst(q, w);
      if head.StartJob? then q'
      else
        var r := DrainThroughStart(q', w);
        assert forall i :: 0 < i < |q.jobs| ==> q.jobs[1..][..i - 1] == q.jobs[..i][1..];
        r
  }

  /**
   * `handleMessage`. A stalled lane does nothing. Before the device is
   * registered every job but StartJob is skipped and stays queued. StartJob
   * then drains the queue through the first StartJob, whatever registration
   * gave; every other job pops the queue's head once handled.
   */
  function HandleMessage(e: Engine, env: Env, job: ServerSyncJob): (e': Engine)
    requires Wf(e)
    ensures Wf(e')
    ensures e.stalled ==> e' == e
    ensures !job.StartJob? && e.device.id.None? ==> e' == e
    ensures e'.stalled ==> e'.queue == e.queue
    ensures !e'.stalled && job.StartJob? ==> DrainedThroughStart(e.queue.jobs, e'.queue.jobs)
    ensures !e'.stalled && !job.StartJob? && e.device.id.Some? ==> e'.queue.jobs == PopFront(e.queue.jobs)
    ensures !e'.stalled && job.StopJob? && e.device.id.Some? ==>
              e'.device.id.None? && e'.events == e.events + [StopEvent]
    ensures IsLocalNoOp(job) ==> e'.calls == e.calls
  {
    if e.stalled || (!job.StartJob? && e.device.id.None?) then e
    else
      if job.StartJob? then
        var e1 := ProcessStartJob(e, env, job.instanceId, job.token);
        if e1.stalled then e1 else e1.(queue := DrainThroughStart(e1.queue, env.writes))
      else
        var e1 := if job.StopJob? then ProcessStopJob(e, env) else ProcessJob(e, env, job);
        if e1.stalled then e1 else e1.(queue := RemoveFirst(e1.queue, env.writes))
  }

  /**
   * `handleMessage` runs StartJob whatever the device state: it has the calls,
   * events, store and device facts of `processStartJob`, and so begins with
   * the registration.
   */
  lemma HandleStartRegisters(e: Engine, env: Env, job: ServerSyncJob)
    requires Wf(e) && !e.stalled && job.StartJob?
    ensures var h := HandleMessage(e, env, job);
            var s := ProcessStartJob(e, env, job.instanceId, job.token);
            h.calls == s.calls && h.events == s.events && h.store == s.store && h.device == s.device
    ensures var h := HandleMessage(e, env, job);
            |h.calls| > |e.calls| && h.calls[|e.calls|] == RegisterCall(job.instanceId, job.token, env.currentMetadata)
  {
    var e1 := ProcessStartJob(e, env, job.instanceId, job.token);
    assert HandleMessage(e, env, job) == (if e1.stalled then e1 else e1.(queue := DrainThroughStart(e1.queue, env.writes)));
  }

  /**
   * Once the device is registered, `handleMessage` hands StopJob to
   * `processStopJob`, which makes the delete call, and every other job to
   * `processJob`, which begins with the job's own call when it has one.
   */
  lemma HandleJobDispatches(e: Engine, env: Env, job: ServerSyncJob)
    requires Wf(e) && !e.stalled && e.device.id.Some? && !job.StartJob?
    ensures var h := HandleMessage(e, env, job);
            var s := ProcessStopJob(e, env);
            job.StopJob? ==> h.calls == s.calls && h.events == s.events && h.store == s.store && h.device == s.device
    ensures var h := HandleMessage(e, env, job);
            job.StopJob? ==> h.calls == e.calls + [DeleteDeviceCall(e.device.id.value)]
    ensures var h := HandleMessage(e, env, job);
            var e1 := ProcessJob(e, env, job);
            !job.StopJob? ==> h.calls == e1.calls && h.events == e1.events && h.store == e1.store && h.device == e1.device
    ensures var h := HandleMessage(e, env, job);
            MakesCall(job) ==> |h.calls| > |e.calls| && h.calls[|e.calls|] == JobCall(job, e.device.id.value).value
  {
    var e1 := if job.StopJob? then ProcessStopJob(e, env) else ProcessJob(e, env, job);
    assert HandleMessage(e, env, job) == (if e1.stalled then e1 else e1.(queue := RemoveFirst(e1.queue, env.writes)));
  }

  /** `sendMessage`: append the job durably, then hand it to the processing lane. */
  function SendMessage(e: Engine, env: Env, job: ServerSyncJob): (e': Engine)
    requires Wf(e)
    ensures Wf(e')
    ensures (e.stalled || (!job.StartJob? && e.device.id.None?)) ==>
              e' == e.(queue := Append(e.queue, job, env.writes))
    ensures !e'.stalled && !job.StartJob? && e.device.id.Some? ==> e'.queue.jobs == PopFront(e.queue.jobs + [job])
  {
    HandleMessage(e.(queue := Append(e.queue, job, env.writes)), env, job)
  }

  /**
   * `sendMessage` handles the job it appends: StartJob as `processStartJob`
   * does, and, once the device is registered, StopJob as `processStopJob`
   * does and every other job as `processJob` does, each over the queue that
   * holds the new job.
   */
  lemma SendMessageHandles(e: Engine, env: Env, job: ServerSyncJob)
    requires Wf(e) && !e.stalled
    ensures job.StartJob? ==>
              var a := e.(queue := Append(e.queue, job, env.writes));
              var h := SendMessage(e, env, job);
              var s := ProcessStartJob(a, env, job.instanceId, job.token);
              h.calls == s.calls && h.events == s.events && h.store == s.store && h.device == s.device
    ensures e.device.id.Some? && job.StopJob? ==>
              var a := e.(queue := Append(e.queue, job, env.writes));
              var h := SendMessage(e, env, job);
              var s := ProcessStopJob(a, env);
              h.calls == s.calls && h.events == s.events && h.store == s.store && h.device == s.device
    ensures e.device.id.Some? && !job.StartJob? && !job.StopJob? ==>
              var a := e.(queue := Append(e.queue, job, env.writes));
              var h := SendMessage(e, env, job);
              var s := ProcessJob(a, env, job);
              h.calls == s.calls && h.events == s.events && h.store == s.store && h.device == s.device
  {
    var a := e.(queue := Append(e.queue, job, env.writes));
    assert SendMessage(e, env, job) == HandleMessage(a, env, job);
    if job.StartJob? {
      HandleStartRegisters(a, env, job);
    } else if e.device.id.Some? {
      HandleJobDispatches(a, env, job);
    }
  }
}

=== FILE: wrappers.dfy ===
/** Optional values, used where the SDK has an optional value. */
module Wrappers {

  datatype Option<+T> = None | Some(value: T) {

    /** The wrapped value, or `default` when there is none (Swift's `??`). */
    function GetOr(default: T): T {
      match this
      case Some(v) => v
      case None => default
    }
  }
}
